=== FILE: README.md ===
# django-filtering-ui: query loading, form serialisation and labels

A Dafny model of the query layer of the django-filtering-ui front end. The
model covers three parts:

- **Loading and sticky extraction.** The `useQueryFilters` composable reads
  the `q` location parameter and parses it into a `Grouping` of
  `Condition`s. It then takes out one "sticky" condition per sticky schema
  field, in schema order. A sticky is the first row that names the field,
  or else a condition built from the field's `sticky_default`. Finally it
  decides whether to add a blank editable row.
- **The filter form.** ComposableFilters and ConditionRow:
  - the hidden `q` value while editing;
  - the value posted on submit, which drops blank or incomplete rows;
  - the guard that turns an empty submit into a redirect;
  - cancel;
  - the rule a row follows when its field changes.
- **Labels.** The operator and lookup label maps used by the read-only
  listing.

JavaScript values are modelled as a `JsValue` datatype. `undefined` is a
value of its own, and `Stringify` follows how `JSON.stringify` treats
`undefined`: inside an array it is written as `null`, and an object member
holding it is dropped. `JSON.parse` is a parameter of the model, so the JSON
text grammar is not modelled. Correlation ids, which the program generates
randomly, are drawn from a supply of naturals passed in as `next`.

Files, one module each:

- `wrappers.dfy`: `Option` and `Result`.
- `js_value.dfy`: `JsValues`, the JavaScript values, truthiness and
  `JSON.stringify`.
- `query.dfy`: `Query`, the `Condition` and `Grouping` value objects,
  `toObject`/`fromObject`, and `addConditions`/`removeConditions`.
- `filter_schema.dfy`: `FilterSchema`, the `filters` part of the options
  schema.
- `use_query_filters.dfy`: `QueryFilters`, the composable.
- `composable_filters.dfy`: `ComposableFilters`, the form.
- `condition_row.dfy`: `ConditionRow`, the identifier-change rule.
- `lookup_mapping.dfy`: `LookupMapping`, the label maps.

The components' `.vue` sources are not part of this model. The form and the
row are modelled from the behaviour that `ComposableFilters.test.js` and
`ConditionRow.test.js` pin down. `@/utils/query` is not part of this model
either: `Condition` and `Grouping` are modelled as far as their uses in the
composable and the tests show them.

## Model

| member | source | states |
|---|---|---|
| JsValues.Truthy | js-src/composables/useQueryFilters.js:73 | `undefined` and `null` are falsy, so a parsed `null` counts as no query; every array and object is truthy |
| JsValues.Stringify | js-src/components/ComposableFilters/ComposableFilters.test.js:12 | Writing a value other than `undefined` gives a JSON value, and a value that is already JSON is written as it is; an array keeps its length and each `undefined` item is written as `null` |
| Query.Blank | js-src/composables/useQueryFilters.test.js:45-50 | `new Condition()` leaves identifier, lookup and value all undefined: the row is blank and not complete |
| Query.ConditionRoundTrip | js-src/components/ComposableFilters/ComposableFilters.test.js:91-104 | Writing a condition as `[identifier, {lookup, value}]` and reading it back gives the same identifier, lookup and value; only the correlation id is new |
| Query.ConditionWireRoundTrip | js-src/components/ComposableFilters/ComposableFilters.test.js:93-103 | A written condition in the form `JSON.stringify` produces reads into a row that writes back to the same value |
| Query.ConditionToObject | js-src/components/ComposableFilters/ComposableFilters.test.js:91-104 | A condition is written as `[identifier, {lookup, value}]`: the identifier comes first, and the `lookup` and `value` members read back the row's lookup and value |
| Query.ConditionFromObject | js-src/composables/useQueryFilters.js:74 | A row read from `[identifier, {…}]` takes the identifier; its lookup and value are the first `lookup` and `value` members of the object, and stay undefined when the object has no such member; the id is the fresh one given |
| Query.GroupingToObject | js-src/composables/useQueryFilters.test.js:11-23 | A grouping is written as its operator followed by the written form of each row, one per row, in order |
| Query.GroupingFromObject | js-src/composables/useQueryFilters.js:74 | Reading `[op, [row, …]]` keeps the operator and gives one row per item, in item order, each read from its item by `Condition.fromObject`, with distinct fresh ids taken from the supply |
| Query.GroupingRoundTrip | js-src/composables/useQueryFilters.test.js:11-23 | A grouping written out and read back has the same operator and the same rows, field for field |
| Query.GroupingWireRoundTrip | js-src/components/ComposableFilters/ComposableFilters.test.js:106-108 | A grouping in the written form `JSON.stringify` produces loads and re-serialises to exactly itself |
| Query.AddConditions | js-src/composables/useQueryFilters.js:76-78 | Adding conditions appends them after the existing rows, which stay as they were, and keeps the operator |
| Query.RemoveConditions | js-src/composables/useQueryFilters.js:27-28 | Removal keeps exactly the rows whose id is not carried by a removed condition, and keeps the operator |
| Query.WithoutAppend | js-src/composables/useQueryFilters.js:27-28 | Removal by id works piecewise over a concatenation, so the surviving rows keep their relative order |
| Query.WithoutAbsent | js-src/composables/useQueryFilters.js:18-28 | Removing ids that no row carries, such as those of freshly built defaults, leaves the rows unchanged |
| Query.RemoveUndoesAdd | js-src/composables/useQueryFilters.js:27-28 | Removing the conditions just added, when their ids are new, restores the grouping |
| FilterSchema.StickyFields | js-src/composables/useQueryFilters.js:8-10 | The selected fields are exactly the `is_sticky` entries of the schema: every one is sticky and in the schema, and no sticky entry is missed |
| FilterSchema.StickyFieldsAppend | js-src/composables/useQueryFilters.js:8-10 | Selecting the sticky fields works piecewise over the schema, so schema key order is preserved |
| FilterSchema.FindField | js-src/components/ComposableFilters/ConditionRow/ConditionRow.test.js:78-80 | The field looked up by name is a schema entry with that name, and there is none exactly when no entry has the name |
| QueryFilters.FirstMatch | js-src/composables/useQueryFilters.js:11-15 | The position found holds a row naming the field and no earlier row names it; no position means no row names it |
| QueryFilters.DefaultCondition | js-src/composables/useQueryFilters.js:18-24 | The condition built for a field without a row holds exactly the field's `sticky_default` identifier, lookup and value |
| QueryFilters.ChooseSticky | js-src/composables/useQueryFilters.js:11-25 | The sticky for a field is the first row naming it, or the default when no row names it |
| QueryFilters.ChooseStickies | js-src/composables/useQueryFilters.js:8-26 | One sticky per field of the list, in list order, each chosen for its own field; defaults take consecutive fresh ids |
| QueryFilters.ExtractStickyConditions | js-src/composables/useQueryFilters.js:6-30 | One sticky per sticky field, in schema order, each the first matching row or the field's default; the operator is kept and only original rows remain |
| QueryFilters.StickyIdOfRow | js-src/composables/useQueryFilters.js:11-28 | A row is taken out exactly when it is the first row for some sticky field, and exactly then is it one of the stickies |
| QueryFilters.ExtractRemainder | js-src/composables/useQueryFilters.js:27-29 | After extraction the grouping holds the original rows minus the first row of each sticky field, in original order; a row remains exactly when it is not a sticky |
| QueryFilters.ExtractKeepsOthers | js-src/composables/useQueryFilters.js:11-16 | Rows naming no sticky field, and later rows for a sticky field after its first, stay in the grouping |
| QueryFilters.StickiesFollowSchemaOrder | js-src/composables/useQueryFilters.js:8-10 | When each sticky default names its own field, sticky `i` names the `i`-th sticky field of the schema, whatever order the rows come in |
| QueryFilters.GetAllStickyDefaults | js-src/composables/useQueryFilters.js:32-46 | One condition per sticky field, in schema order, each holding exactly that field's default |
| QueryFilters.DefaultsAreEmptyExtraction | js-src/composables/useQueryFilters.js:6-46 | The defaults are exactly the stickies extraction picks from a grouping with no rows |
| QueryFilters.ReadQuery | js-src/composables/useQueryFilters.js:54-67 | An absent or empty `q` gives null data with nothing logged; a `q` that fails to parse gives null data and logs "Error parsing JSON:" once; otherwise the data is the parsed value |
| QueryFilters.NoQueryCases | js-src/composables/useQueryFilters.js:56-73 | There is no usable query exactly when `q` is absent, `q` is empty, `q` fails to parse, or the parsed value is falsy |
| QueryFilters.LoadQuery | js-src/composables/useQueryFilters.js:73-79 | The query branch keeps the parsed operator and yields one sticky per sticky field; with `createDefault` the grouping is never empty |
| QueryFilters.UseQueryFilters | js-src/composables/useQueryFilters.js:48-87 | A missing schema is an error whatever `q` holds. Otherwise: the parse-error line is logged exactly when parsing fails; there is an original exactly when there is a usable query, and it is the parsed value; there is a grouping unless there is no query and no `createDefault` |
| QueryFilters.LoadWithoutQuery | js-src/composables/useQueryFilters.js:80-84 | With no usable query, `createDefault` gives an `and` grouping with one blank row and every sticky at its default; without it there is no grouping and no sticky; there is no original either way |
| QueryFilters.LoadWithQuery | js-src/composables/useQueryFilters.js:73-79 | With a usable query the result carries the loaded grouping and stickies and the parsed value as original, and logs nothing |
| QueryFilters.LoadQueryBlankRow | js-src/composables/useQueryFilters.js:75-78 | The stickies are the extracted ones; a blank row is added only when extraction leaves no row and `createDefault` is set, and then it is the only row |
| QueryFilters.ExtractSingleSticky | js-src/composables/useQueryFilters.test.js:80-97 | When the only row is for the only sticky field, extraction makes that row the sticky and leaves the grouping empty under the same operator |
| QueryFilters.StickyOnlyQuery | js-src/composables/useQueryFilters.test.js:80-113 | A query whose only row is for the only sticky field gives that row as the sticky, with the query's value, and a grouping of one blank row |
| QueryFilters.LoadRoundTrip | js-src/composables/useQueryFilters.test.js:11-26 | With no sticky fields, a query in written form that has at least one row, or is loaded without `createDefault`, loads into a grouping whose written form is the original |
| QueryFilters.ParseErrorFallback | js-src/composables/useQueryFilters.test.js:116-128 | A `q` that does not parse logs "Error parsing JSON:" once and then loads as if there were no query |
| ComposableFilters.Mount | js-src/components/ComposableFilters/ComposableFilters.test.js:32-41 | The mounted form has one sticky per sticky field, keeps the incoming `q`, has an original exactly when there is a usable query, always has at least one row, and its operator is a JSON value |
| ComposableFilters.EditedStickies | js-src/components/ComposableFilters/ComposableFilters.test.js:250-255 | Every kept sticky differs from its field's default, and every sticky that differs is kept: none when all are at default, all when none are |
| ComposableFilters.EditedStickiesAppend | js-src/components/ComposableFilters/ComposableFilters.test.js:299-311 | Dropping the stickies at their default works piecewise, so the edited stickies keep their schema order |
| ComposableFilters.CompleteRows | js-src/components/ComposableFilters/ComposableFilters.test.js:175-220 | Exactly the complete rows are kept: every row when all are complete, none when none are |
| ComposableFilters.CompleteRowsAppend | js-src/components/ComposableFilters/ComposableFilters.test.js:175-199 | Filtering complete rows works piecewise, so the kept rows stay in their original relative order |
| ComposableFilters.LiveValue | js-src/components/ComposableFilters/ComposableFilters.test.js:299-311 | The live `q` value is the operator followed by the edited stickies and then every row, blank or not, each in written form |
| ComposableFilters.SubmitValue | js-src/components/ComposableFilters/ComposableFilters.test.js:316-321 | The submitted value is the operator followed by every sticky and then only the complete rows |
| ComposableFilters.IsNoOp | js-src/components/ComposableFilters/ComposableFilters.test.js:154-172 | A form with nothing to submit has no edited sticky and no complete row, so its live value shows no sticky and its submit would post no row |
| ComposableFilters.OnSubmit | js-src/components/ComposableFilters/ComposableFilters.test.js:154-172 | Submit redirects, keeping `q` as it was, exactly when there is no original, every sticky is at default and every row is blank; otherwise it posts every sticky followed by the complete rows |
| ComposableFilters.OnCancel | js-src/components/ComposableFilters/ComposableFilters.test.js:128-151 | Cancel always redirects and keeps `q` as it was |
| ComposableFilters.AddRow | js-src/components/ComposableFilters/ComposableFilters.test.js:47-55 | "Add row" appends one blank row and changes nothing else |
| ComposableFilters.SetOperator | js-src/components/ComposableFilters/ComposableFilters.test.js:67-68 | Choosing an operator sets it and changes nothing else |
| ComposableFilters.SetStickyValue | js-src/components/ComposableFilters/ComposableFilters.test.js:284-297 | Editing a sticky's value leaves its identifier and lookup, the other stickies and the rest of the form as they were |
| ComposableFilters.WriteGrouping | js-src/components/ComposableFilters/ComposableFilters.test.js:12 | When the operator is a JSON value, a grouping's written form is its operator followed by each row's written form, in order |
| ComposableFilters.WireOfBlank | js-src/components/ComposableFilters/ComposableFilters.test.js:12 | A blank condition is written as `[null,{}]` |
| ComposableFilters.MountWithoutQuery | js-src/components/ComposableFilters/ComposableFilters.test.js:32-45 | With no `q` the form has an `and` operator, no original, one blank row and every sticky at default |
| ComposableFilters.MountWithQuery | js-src/components/ComposableFilters/ComposableFilters.test.js:76-104 | With no sticky fields and at least one row in the query, an incoming query in written form gives the form its operator and rows and makes it the original |
| ComposableFilters.FreshFormValue | js-src/components/ComposableFilters/ComposableFilters.test.js:43-45 | A first visit shows `["and",[[null,{}]]]`, whatever the sticky fields |
| ComposableFilters.AddRowAppendsBlank | js-src/components/ComposableFilters/ComposableFilters.test.js:51-57 | "Add row" appends one `[null,{}]` to the end of the live value and changes nothing before it |
| ComposableFilters.SetOperatorChangesHead | js-src/components/ComposableFilters/ComposableFilters.test.js:67-73 | Choosing the operator changes only the first element of the live value |
| ComposableFilters.LiveValueRoundTrip | js-src/components/ComposableFilters/ComposableFilters.test.js:106-108 | With no sticky fields, at least one row in the query and no edits, an incoming query in written form is the live value unchanged |
| ComposableFilters.EmptyQueryGainsBlank | js-src/composables/useQueryFilters.js:73-79 | A query with no rows does not come back unchanged: under `createDefault` the form gains a blank row, so the live value shows `[null,{}]` where the query had no row |
| ComposableFilters.SubmitDropsIncomplete | js-src/components/ComposableFilters/ComposableFilters.test.js:201-219 | Extra incomplete rows, wherever they follow, do not change the submitted value |
| ComposableFilters.SubmitRoundTrip | js-src/components/ComposableFilters/ComposableFilters.test.js:175-199 | An incoming query of complete rows, with any number of blank rows added, submits exactly the original query |
| ComposableFilters.LoadedRowsComplete | js-src/components/ComposableFilters/ComposableFilters.test.js:175-199 | A query whose written rows are all complete loads into rows that submit keeps, every one of them |
| ComposableFilters.SubmitLoadedQuery | js-src/components/ComposableFilters/ComposableFilters.test.js:193-198 | A form with no stickies, loaded from a written query whose rows are all complete, submits that query even with blank rows appended |
| ComposableFilters.EmptySubmitRedirects | js-src/components/ComposableFilters/ComposableFilters.test.js:257-264 | A form with no query, stickies at default and only blank rows redirects on submit and keeps no `q` |
| ComposableFilters.EditedStickyLeads | js-src/components/ComposableFilters/ComposableFilters.test.js:267-321 | An edited sticky comes before the blank row in the live value, and is the only row submitted |
| ComposableFilters.EditedOnlySticky | js-src/components/ComposableFilters/ComposableFilters.test.js:299-321 | A form holding one edited sticky and one blank row shows the sticky first and submits only the sticky |
| ComposableFilters.CancelKeepsQuery | js-src/components/ComposableFilters/ComposableFilters.test.js:141-151 | After adding a row, choosing an operator and editing a sticky, cancel still redirects with the original `q` |
| ConditionRow.OnIdentifierChange | js-src/components/ComposableFilters/ConditionRow/ConditionRow.test.js:48-106 | The row takes the new field's name and keeps its id. It keeps lookup and value when the new field offers the lookup; otherwise the lookup becomes the field's first and the value is cleared |
| ConditionRow.RelativeIsOffered | js-src/components/ComposableFilters/ConditionRow/ConditionRow.test.js:78-80 | After a field change the lookup is one the new field offers, whenever the field offers any |
| ConditionRow.IdentifierChangeIdempotent | js-src/components/ComposableFilters/ConditionRow/ConditionRow.test.js:48-52 | Selecting the same field again changes nothing |
| ConditionRow.ValueKeptIffLookupShared | js-src/components/ComposableFilters/ConditionRow/ConditionRow.test.js:84-105 | A typed value survives a field change exactly when the new field offers the row's lookup |
| ConditionRow.SharedLookupRoundTrip | js-src/components/ComposableFilters/ConditionRow/ConditionRow.test.js:94-105 | Switching away from a field and back, when both offer the row's lookup, restores the row exactly |
| ConditionRow.ExampleSession | js-src/components/ComposableFilters/ConditionRow/ConditionRow.test.js:74-105 | The test's session over the two-field example schema: `icontains` on first choice, a reset to `iexact` with the value cleared, then `icontains` and the typed value kept |
| LookupMapping.ReadProperty | js-src/utils/lookupMapping.js:16-22 | Indexing an object literal gives its own entry for an own key, an inherited member for an `Object.prototype` name, and `undefined` otherwise |
| LookupMapping.OperatorToLabelAsWritten | js-src/utils/lookupMapping.js:20-22 | `operatorToLabel` as written yields `undefined` only for names outside the operator map |
| LookupMapping.LookupToLabelAsWritten | js-src/utils/lookupMapping.js:16-18 | `lookupToLabel` as written yields `undefined` only for names outside the lookup map |
| LookupMapping.OperatorInheritedMember | js-src/utils/lookupMapping.js:2-6 | As written, "constructor" as an operator and "toString" as a lookup read inherited members, not `undefined` |
| LookupMapping.OperatorToLabel | js-src/utils/lookupMapping.js:2-6 | `and`, `or` and `not` read "all", "any" and "none", and every other name has no label |
| LookupMapping.LookupToLabel | js-src/utils/lookupMapping.js:8-14 | `istartswith`, `iendswith` and `icontains` read "starts with", "ends with" and "contains"; `iexact` and `exact` both read "equals"; every other name has no label |
| LookupMapping.LabelsAgreeWithIndexing | js-src/utils/lookupMapping.js:16-22 | The labels agree with plain indexing on every own key; names inherited from `Object.prototype` have no label |
| LookupMapping.OperatorLabelsDistinct | js-src/utils/lookupMapping.js:2-6 | No two operators share a label |
| LookupMapping.LookupLabelsShared | js-src/utils/lookupMapping.js:12-13 | `exact` and `iexact` share the label "equals", so lookup labels do not identify their lookup |
| LookupMapping.OrPreamble | js-src/apps/Listing.test.js:27-29 | The preamble over an `or` grouping reads "Results match any of:" |

## Left out

- Vue reactivity (`ref`), the DOM, select rendering, disabled inputs and the test mount helpers are not modelled: they are UI plumbing.
- `useSearchParams`, `window.location` and navigation are outside the model. `q` is an `Option<string>` input, and a redirect is an `Outcome` value that carries the `q` it keeps.
- The JSON text grammar is not modelled. `JSON.parse` is the `parse` parameter, and `console.error` is the `log` sequence of messages.
- Numbers are modelled as integers. Floating point is not modelled.
- Validation inside `Grouping.fromObject` is not modelled. Its source is not part of this model, and it is called outside the `try`. A usable query is required to have the `[op, [[identifier, {…}], …]]` shape and, as anything `JSON.parse` returns, to hold no `undefined` (`ShapedQuery`). Recovery from other shapes is not claimed.
- Correlation ids are random in the program. Here they are fresh naturals from the `next` supply, and the model does not say how the program generates them.
- `Object.entries` ordering quirks, where integer-like keys sort first, are not modelled. The schema is a sequence in key-iteration order.
- Query.ConditionFromObject: reads the first `lookup` or `value` member of an object. `JSON.parse` keeps the last of repeated keys, so for `{"lookup":"a","lookup":"b"}` the program reads `"b"`. Objects with repeated keys are not modelled faithfully: `Obj` keeps every member in order.
- The Django template tag (`src/django_filtering_ui/templatetags/django_filtering_ui.py`) is not modelled. It only wraps Django's `static`, `urljoin` and settings in a `<script>` tag, and those are foreign calls.
- The code and its test disagree, and the model follows the code. `js-src/composables/useQueryFilters.test.js:62-78` expects sticky defaults when `createDefault` is not set. `js-src/composables/useQueryFilters.js:80-84` returns no stickies in that case, and `QueryFilters.LoadWithoutQuery` states what the code does.
- ComposableFilters.LiveValue: states the written form only when the operator is a JSON value. `JSON.parse` never yields `undefined` and the operator select sets a string, so the operator is always JSON; `ComposableFilters.Mount` states this for a freshly loaded form.
- ComposableFilters.SubmitValue: states the submitted value only when the operator is a JSON value, for the same reason as `ComposableFilters.LiveValue`.
- ComposableFilters.LiveValueRoundTrip: proved for a schema without sticky fields and a query with at least one row. Otherwise an unedited query does not come back unchanged. A query with no rows gains a blank row (`js-src/composables/useQueryFilters.js:76-78`), which `ComposableFilters.EmptyQueryGainsBlank` states. A sticky row at its default is taken out of the rows and is then not shown. An edited sticky row that is not first moves to the front.
- ComposableFilters.SubmitRoundTrip: proved for a schema without sticky fields. With sticky fields, the stickies lead the submitted value, which `ComposableFilters.EditedStickyLeads` states for one sticky field.
- ConditionRow.OnIdentifierChange: requires the new name to be a schema field, because the select offers only those. A cleared value is modelled as `undefined`; the text input shows it as "". The `disabled` state of the inputs is not modelled.
- QueryFilters.UseQueryFilters: requires every sticky field to carry a `sticky_default` (`StickyDefaultsPresent`), and `ComposableFilters.Mount`, `QueryFilters.ExtractStickyConditions` and `QueryFilters.GetAllStickyDefaults` require the same. The program reads `sticky_default` only for a sticky field with no matching row (`js-src/composables/useQueryFilters.js:18-23`) and in `getAllStickyDefaults` (`:37-43`); with a missing default it throws a `TypeError` there. With no usable query and no `createDefault` (`:80-84`), such a schema loads without error. Neither the `TypeError` path nor that error-free load is modelled for a schema missing a default. A schema object with no `filters` member fails the same way, because `Object.entries(undefined)` throws at `:8` and `:34`, and it is not modelled either. A `null` options schema also passes the `typeof … === "undefined"` guard at `:50`. `optionsSchema.filters` is read only by `extractStickyConditions` (`:8`) and `getAllStickyDefaults` (`:34`), so such a schema fails there when there is a usable query or `createDefault` is set, and otherwise returns no grouping, no stickies and no original without error. The model's `Option` schema cannot express `null` apart from absence, so neither outcome is modelled.
- The "remove row" event (`ConditionRow.test.js:36-46`) is not modelled. It only emits an event to the parent, and the parent's handler is in a `.vue` source that is not part of this model.
- The `Condition` constructor storing its positional arguments is modelled as the datatype constructor itself. A row loaded from `q` shows the identifier, lookup and value it was written with (`ComposableFilters.test.js:91-104`), and `Query.ConditionRoundTrip` states that writing a condition out and reading it back keeps all three.

## Findings

| source | as written | input that shows it | evidently intended | confidence | as-written member | corrected member |
|---|---|---|---|---|---|---|
| js-src/utils/lookupMapping.js:16-22 | `OPERATOR_MAP[op]` and `LOOKUP_MAP[lookup]` index plain object literals, so names inherited from `Object.prototype` resolve to inherited members | an operator of `"constructor"` in `q`, or a lookup of `"toString"`, returns a function instead of `undefined` | an unmapped name, including an inherited one, has no label (`undefined`) | medium; not executed | LookupMapping.OperatorInheritedMember | LookupMapping.LabelsAgreeWithIndexing |

=== FILE: composable_filters.dfy ===
/**
 * The filter form: the live `q` form value, the submit-time serialisation,
 * the no-op submit guard and cancel. The form loads its query with
 * `createDefault` set, so it always has at least one editable row.
 */
module ComposableFilters {

  import opened Wrappers
  import opened JsValues
  import opened Query
  import opened FilterSchema
  import opened QueryFilters

  /** The form's state: the schema, the incoming `q`, and the rows being edited. */
  datatype FormState = FormState(
    schema: Schema,
    q: Option<string>,
    original: Option<JsValue>,
    operation: JsValue,
    stickies: seq<Condition>,
    rows: seq<Condition>)

  /** One sticky per sticky field, as loading produces. */
  predicate Valid(s: FormState) {
    StickyDefaultsPresent(s.schema) && |s.stickies| == |StickyFields(s.schema)|
  }

  /** How a blank row is written in the `q` value: `[null,{}]`. */
  const BLANK_WIRE: JsValue := Arr([Null, Obj([])])

  /** A condition as it appears in the `q` value. */
  function Wire(c: Condition): JsValue {
    Stringify(ConditionToObject(c))
  }

  /** The rows as they appear in the `q` value, in order. */
  function WireRows(cs: seq<Condition>): (r: seq<JsValue>)
    ensures |r| == |cs|
    ensures forall i | 0 <= i < |cs| :: r[i] == Wire(cs[i])
  {
    MapSeq(Wire, cs)
  }

  /** `f` applied to each element, in order. */
  function MapSeq<A, B>(f: A -> B, s: seq<A>): (r: seq<B>)
    ensures |r| == |s|
    ensures forall i | 0 <= i < |s| :: r[i] == f(s[i])
  {
    seq(|s|, i requires 0 <= i < |s| => f(s[i]))
  }

  /** Mapping works piecewise over a concatenation. */
  lemma MapSeqAppend<A, B>(f: A -> B, a: seq<A>, b: seq<A>)
    ensures MapSeq(f, a + b) == MapSeq(f, a) + MapSeq(f, b)
  {
    ConcatPointwise(MapSeq(f, a + b), MapSeq(f, a), MapSeq(f, b));
  }

  /** Mounting the form loads the query with `createDefault`. */
  function Mount(schema: Schema, q: Option<string>, parse: string -> ParseResult, next: nat): (s: FormState)
    requires StickyDefaultsPresent(schema) && ShapedQuery(q, parse)
    ensures Valid(s) && s.schema == schema && s.q == q
    ensures s.original.Some? <==> HasQuery(q, parse)
    ensures |s.rows| > 0
    ensures IsJson(s.operation)
  {
    var loaded := UseQueryFilters(Options(Some(schema), true), q, parse, next).value;
    var g := loaded.grouping.value;
    FormState(schema, q, loaded.original, g.operation, loaded.stickies, g.conditions)
  }

  /** The stickies that differ from their field's default, in order. */
  function EditedStickies(stickies: seq<Condition>, fields: Schema): (r: seq<Condition>)
    requires |stickies| == |fields|
    ensures forall c | c in r :: exists i | 0 <= i < |stickies| :: c == stickies[i] && !AtDefault(stickies[i], fields[i])
    ensures forall i | 0 <= i < |stickies| :: !AtDefault(stickies[i], fields[i]) ==> stickies[i] in r
    ensures (forall i | 0 <= i < |stickies| :: AtDefault(stickies[i], fields[i])) ==> r == []
    ensures (forall i | 0 <= i < |stickies| :: !AtDefault(stickies[i], fields[i])) ==> r == stickies
  {
    if |stickies| == 0 then []
    else
      var tail, tailFields := stickies[1..], fields[1..];
      var rest := EditedStickies(tail, tailFields);
      if AtDefault(stickies[0], fields[0]) then rest else [stickies[0]] + rest
  }

  /** Dropping the stickies at default works piecewise, so the edited ones keep their order. */
  lemma {:induction false} EditedStickiesAppend(a: seq<Condition>, fa: Schema, b: seq<Condition>, fb: Schema)
    requires |a| == |fa| && |b| == |fb|
    ensures EditedStickies(a + b, fa + fb) == EditedStickies(a, fa) + EditedStickies(b, fb)
    decreases |a|
  {
    if |a| == 0 {
      assert a + b == b && fa + fb == fb;
    } else {
      var ab, fab := a + b, fa + fb;
      assert ab[1..] == a[1..] + b && fab[1..] == fa[1..] + fb;
      assert ab[0] == a[0] && fab[0] == fa[0];
      EditedStickiesAppend(a[1..], fa[1..], b, fb);
      var rest := EditedStickies(a[1..], fa[1..]) + EditedStickies(b, fb);
      if AtDefault(a[0], fa[0]) {
        assert EditedStickies(ab, fab) == rest;
      } else {
        assert EditedStickies(ab, fab) == [a[0]] + rest;
        assert [a[0]] + rest == ([a[0]] + EditedStickies(a[1..], fa[1..])) + EditedStickies(b, fb);
      }
    }
  }

  /** The non-sticky rows that are complete, in order. */
  function CompleteRows(rows: seq<Condition>): (r: seq<Condition>)
    ensures forall c | c in r :: c in rows && IsComplete(c)
    ensures forall i | 0 <= i < |rows| :: IsComplete(rows[i]) ==> rows[i] in r
    ensures (forall i | 0 <= i < |rows| :: IsComplete(rows[i])) ==> r == rows
    ensures (forall i | 0 <= i < |rows| :: !IsComplete(rows[i])) ==> r == []
  {
    if |rows| == 0 then []
    else (if IsComplete(rows[0]) then [rows[0]] else []) + CompleteRows(rows[1..])
  }

  lemma {:induction false} CompleteRowsAppend(a: seq<Condition>, b: seq<Condition>)
    ensures CompleteRows(a + b) == CompleteRows(a) + CompleteRows(b)
    decreases |a|
  {
    if |a| == 0 {
      assert a + b == b;
    } else {
      assert (a + b)[1..] == a[1..] + b;
      CompleteRowsAppend(a[1..], b);
    }
  }

  /**
   * The form's hidden `q` value while editing: edited stickies first, then
   * every row, blank or not; stickies at their default are left out.
   */
  function LiveValue(s: FormState): (v: JsValue)
    requires Valid(s)
    ensures IsJson(s.operation) ==>
      v == Arr([s.operation, Arr(WireRows(EditedStickies(s.stickies, StickyFields(s.schema)) + s.rows))])
  {
    var cs := EditedStickies(s.stickies, StickyFields(s.schema)) + s.rows;
    WriteGrouping(s.operation, cs);
    Stringify(GroupingToObject(Grouping(s.operation, cs)))
  }

  /**
   * The `q` value submitted: every sticky, then only the complete rows,
   * each group in its own order.
   */
  function SubmitValue(op: JsValue, stickies: seq<Condition>, rows: seq<Condition>): (v: JsValue)
    ensures IsJson(op) ==> v == Arr([op, Arr(WireRows(stickies + CompleteRows(rows)))])
  {
    var cs := stickies + CompleteRows(rows);
    WriteGrouping(op, cs);
    Stringify(GroupingToObject(Grouping(op, cs)))
  }

  /** Nothing to submit: no incoming query, stickies at default, only blank rows. */
  predicate IsNoOp(s: FormState)
    requires Valid(s)
    ensures IsNoOp(s) ==> EditedStickies(s.stickies, StickyFields(s.schema)) == [] && CompleteRows(s.rows) == []
  {
    && s.original.None?
    && (forall i | 0 <= i < |s.stickies| :: AtDefault(s.stickies[i], StickyFields(s.schema)[i]))
    && (forall i | 0 <= i < |s.rows| :: IsBlank(s.rows[i]))
  }

  /** What a submit or cancel does: post the form, or go to the index keeping `q` as it was. */
  datatype Outcome = Submitted(value: JsValue) | Redirected(q: Option<string>)

  function OnSubmit(s: FormState): (o: Outcome)
    requires Valid(s)
    ensures o.Redirected? <==> IsNoOp(s)
    ensures o.Redirected? ==> o.q == s.q
    ensures o.Submitted? ==> o.value == SubmitValue(s.operation, s.stickies, s.rows)
  {
    if IsNoOp(s) then Redirected(s.q)
    else Submitted(SubmitValue(s.operation, s.stickies, s.rows))
  }

  function OnCancel(s: FormState): (o: Outcome)
    ensures o.Redirected? && o.q == s.q
  {
    Redirected(s.q)
  }

  /** "Add row": a blank row at the end. */
  function AddRow(s: FormState, id: nat): (r: FormState)
    ensures r.rows == s.rows + [Blank(id)]
    ensures r.(rows := s.rows) == s
  {
    s.(rows := s.rows + [Blank(id)])
  }

  /** Choosing the top-level operator. */
  function SetOperator(s: FormState, op: string): (r: FormState)
    ensures r.operation == Str(op)
    ensures r.(operation := s.operation) == s
  {
    s.(operation := Str(op))
  }

  /** Editing the value of sticky `i`. */
  function SetStickyValue(s: FormState, i: nat, v: JsValue): (r: FormState)
    requires i < |s.stickies|
    ensures |r.stickies| == |s.stickies|
    ensures r.stickies[i].value == v && r.stickies[i].identifier == s.stickies[i].identifier
    ensures r.stickies[i].relative == s.stickies[i].relative
    ensures forall j | 0 <= j < |s.stickies| && j != i :: r.stickies[j] == s.stickies[j]
    ensures r.(stickies := s.stickies) == s
  {
    s.(stickies := s.stickies[i := s.stickies[i].(value := v)])
  }

  // ---------------------------------------------------------------------------
  // Properties of the live and submitted values
  // ---------------------------------------------------------------------------

  /** The written form of a grouping: the operator, then each row's wire form. */
  lemma WriteGrouping(op: JsValue, cs: seq<Condition>)
    ensures IsJson(op) ==> Stringify(GroupingToObject(Grouping(op, cs))) == Arr([op, Arr(WireRows(cs))])
  {
    if IsJson(op) {
      var o := GroupingToObject(Grouping(op, cs));
      var objs := o.items[1].items;
      assert o.items == [op, Arr(objs)];
      StringifyArray(objs);
      var ws := seq(|objs|, i requires 0 <= i < |objs| => Stringify(objs[i]));
      assert ws == WireRows(cs);
      StringifyPair(op, Arr(objs));
    }
  }

  lemma WireOfBlank(id: nat)
    ensures Wire(Blank(id)) == BLANK_WIRE
  {
    StringifyCondition(Blank(id));
  }

  /** What mounting with no `q` gives: an `and` form with one blank row and every sticky at default. */
  lemma MountWithoutQuery(schema: Schema, parse: string -> ParseResult, next: nat)
    requires StickyDefaultsPresent(schema)
    ensures var s := Mount(schema, None, parse, next);
      && s.operation == Str("and")
      && s.original.None?
      && |s.rows| == 1 && Wire(s.rows[0]) == BLANK_WIRE && IsBlank(s.rows[0])
      && forall i | 0 <= i < |s.stickies| :: AtDefault(s.stickies[i], StickyFields(schema)[i])
  {
    LoadWithoutQuery(schema, true, None, parse, next);
    var s := Mount(schema, None, parse, next);
    WireOfBlank(s.rows[0].id);
    assert s.rows[0] == Blank(s.rows[0].id);
  }

  /** With no sticky fields, mounting a query in written form gives its rows and operator as they are. */
  lemma MountWithQuery(schema: Schema, text: string, o: JsValue, parse: string -> ParseResult, next: nat)
    requires StickyDefaultsPresent(schema) && StickyFields(schema) == []
    requires text != "" && parse(text) == Parsed(o)
    requires IsCanonicalGrouping(o) && |o.items[1].items| > 0
    ensures var s := Mount(schema, Some(text), parse, next);
      && s.original == Some(o)
      && s.stickies == []
      && Grouping(s.operation, s.rows) == GroupingFromObject(o, next)
  {
    assert HasQuery(Some(text), parse);
    LoadWithQuery(schema, true, Some(text), parse, next);
    LoadQueryBlankRow(o, schema, true, next);
    var parsed := GroupingFromObject(o, next);
    var ex := ExtractStickyConditions(parsed, schema, next + |parsed.conditions|);
    assert IdsOf(ex.stickies) == {};
    WithoutAbsent(parsed.conditions, {});
  }

  /** A first visit with no query shows `["and",[[null,{}]]]`, whatever the stickies. */
  lemma FreshFormValue(schema: Schema, parse: string -> ParseResult, next: nat)
    requires StickyDefaultsPresent(schema)
    ensures LiveValue(Mount(schema, None, parse, next)) == Arr([Str("and"), Arr([BLANK_WIRE])])
  {
    MountWithoutQuery(schema, parse, next);
    var s := Mount(schema, None, parse, next);
    assert EditedStickies(s.stickies, StickyFields(schema)) == [];
    assert [] + s.rows == s.rows;
    WriteGrouping(Str("and"), s.rows);
    assert WireRows(s.rows) == [BLANK_WIRE];
  }

  /** "Add row" appends one `[null,{}]` at the end of the live value and changes nothing else. */
  lemma AddRowAppendsBlank(s: FormState, id: nat)
    requires Valid(s) && IsJson(s.operation)
    ensures var cs := EditedStickies(s.stickies, StickyFields(s.schema)) + s.rows;
      && LiveValue(s) == Arr([s.operation, Arr(WireRows(cs))])
      && LiveValue(AddRow(s, id)) == Arr([s.operation, Arr(WireRows(cs) + [BLANK_WIRE])])
  {
    var cs := EditedStickies(s.stickies, StickyFields(s.schema)) + s.rows;
    var cs' := EditedStickies(s.stickies, StickyFields(s.schema)) + AddRow(s, id).rows;
    assert cs' == cs + [Blank(id)];
    WireRowsAppend(cs, [Blank(id)]);
    WireOfBlank(id);
    assert WireRows([Blank(id)]) == [BLANK_WIRE];
  }

  /** Writing rows works piecewise over a concatenation. */
  lemma WireRowsAppend(a: seq<Condition>, b: seq<Condition>)
    ensures WireRows(a + b) == WireRows(a) + WireRows(b)
  {
    MapSeqAppend(Wire, a, b);
  }

  /** A sequence that agrees with `x` and then with `y`, position by position, is `x + y`. */
  lemma ConcatPointwise<T>(l: seq<T>, x: seq<T>, y: seq<T>)
    requires |l| == |x| + |y|
    requires forall i | 0 <= i < |x| :: l[i] == x[i]
    requires forall i | 0 <= i < |y| :: l[|x| + i] == y[i]
    ensures l == x + y
  {
    forall i | 0 <= i < |l|
      ensures l[i] == (x + y)[i]
    {
      if i >= |x| {
        assert l[|x| + (i - |x|)] == y[i - |x|];
      }
    }
  }

  /** Changing the top-level operator changes only the first element of the live value. */
  lemma SetOperatorChangesHead(s: FormState, op: string)
    requires Valid(s) && IsJson(s.operation)
    ensures LiveValue(SetOperator(s, op)) == Arr([Str(op), LiveValue(s).items[1]])
  {
  }

  /**
   * With no sticky fields, an incoming query in written form shows up
   * unchanged as the live value when nothing is edited.
   */
  lemma LiveValueRoundTrip(schema: Schema, text: string, o: JsValue, parse: string -> ParseResult, next: nat)
    requires StickyDefaultsPresent(schema) && StickyFields(schema) == []
    requires text != "" && parse(text) == Parsed(o)
    requires IsCanonicalGrouping(o) && |o.items[1].items| > 0
    ensures LiveValue(Mount(schema, Some(text), parse, next)) == o
  {
    MountWithQuery(schema, text, o, parse, next);
    var s := Mount(schema, Some(text), parse, next);
    assert EditedStickies(s.stickies, StickyFields(schema)) == [];
    assert [] + s.rows == s.rows;
    GroupingWireRoundTrip(o, next);
  }

  /** A query with no rows does not come back unchanged: loading adds the blank row the form edits. */
  lemma EmptyQueryGainsBlank(schema: Schema, text: string, op: JsValue, parse: string -> ParseResult, next: nat)
    requires StickyDefaultsPresent(schema) && StickyFields(schema) == []
    requires text != "" && IsJson(op) && parse(text) == Parsed(Arr([op, Arr([])]))
    ensures LiveValue(Mount(schema, Some(text), parse, next)) == Arr([op, Arr([BLANK_WIRE])])
    ensures LiveValue(Mount(schema, Some(text), parse, next)) != Arr([op, Arr([])])
  {
    var o := Arr([op, Arr([])]);
    assert HasQuery(Some(text), parse);
    LoadWithQuery(schema, true, Some(text), parse, next);
    LoadQueryBlankRow(o, schema, true, next);
    var s := Mount(schema, Some(text), parse, next);
    assert s.operation == op && |s.rows| == 1 && IsBlank(s.rows[0]);
    assert s.rows[0] == Blank(s.rows[0].id);
    WireOfBlank(s.rows[0].id);
    assert EditedStickies(s.stickies, StickyFields(schema)) == [];
    assert [] + s.rows == s.rows;
    assert WireRows(s.rows) == [BLANK_WIRE];
  }

  /** Incomplete rows never reach the submitted value. */
  lemma SubmitDropsIncomplete(op: JsValue, stickies: seq<Condition>, rows: seq<Condition>, extra: seq<Condition>)
    requires forall i | 0 <= i < |extra| :: !IsComplete(extra[i])
    ensures SubmitValue(op, stickies, rows + extra) == SubmitValue(op, stickies, rows)
  {
    CompleteRowsAppend(rows, extra);
    assert CompleteRows(rows) + [] == CompleteRows(rows);
  }

  /** Every field of the written condition is present and not `null`. */
  predicate IsCompleteWire(o: JsValue)
    requires IsConditionShape(o)
  {
    && !Unset(o.items[0])
    && !Unset(Member(o.items[1].fields, "lookup"))
    && !Unset(Member(o.items[1].fields, "value"))
  }

  /**
   * A loaded query of complete rows, with any number of untouched "add row"
   * rows appended, submits exactly as it came in.
   */
  lemma SubmitRoundTrip(schema: Schema, text: string, o: JsValue, parse: string -> ParseResult,
                        next: nat, blanks: seq<Condition>)
    requires StickyDefaultsPresent(schema) && StickyFields(schema) == []
    requires text != "" && parse(text) == Parsed(o)
    requires IsCanonicalGrouping(o) && |o.items[1].items| > 0
    requires forall i | 0 <= i < |o.items[1].items| :: IsCompleteWire(o.items[1].items[i])
    requires forall i | 0 <= i < |blanks| :: IsBlank(blanks[i])
    ensures var s := Mount(schema, Some(text), parse, next);
      OnSubmit(s.(rows := s.rows + blanks)) == Submitted(o)
  {
    MountWithQuery(schema, text, o, parse, next);
    SubmitLoadedQuery(Mount(schema, Some(text), parse, next), o, next, blanks);
  }

  /** A query whose written rows are all complete loads into rows that are all kept on submit. */
  lemma LoadedRowsComplete(o: JsValue, next: nat)
    requires IsGroupingShape(o)
    requires forall i | 0 <= i < |o.items[1].items| :: IsCompleteWire(o.items[1].items[i])
    ensures CompleteRows(GroupingFromObject(o, next).conditions) == GroupingFromObject(o, next).conditions
  {
    var rows := GroupingFromObject(o, next).conditions;
    assert forall i | 0 <= i < |rows| :: IsComplete(rows[i]);
  }

  lemma SubmitLoadedQuery(s: FormState, o: JsValue, next: nat, blanks: seq<Condition>)
    requires Valid(s) && s.original.Some? && s.stickies == []
    requires IsCanonicalGrouping(o) && Grouping(s.operation, s.rows) == GroupingFromObject(o, next)
    requires forall i | 0 <= i < |o.items[1].items| :: IsCompleteWire(o.items[1].items[i])
    requires forall i | 0 <= i < |blanks| :: IsBlank(blanks[i])
    ensures OnSubmit(s.(rows := s.rows + blanks)) == Submitted(o)
  {
    var op := s.operation;
    var rows := s.rows;
    LoadedRowsComplete(o, next);
    GroupingWireRoundTrip(o, next);
    WriteGrouping(op, rows);
    SubmitDropsIncomplete(op, [], rows, blanks);
    assert [] + rows == rows;
    assert SubmitValue(op, [], rows + blanks) == o;
  }

  /** Submitting an untouched fresh form, however many blank rows were added, goes to the index with no `q`. */
  lemma EmptySubmitRedirects(schema: Schema, parse: string -> ParseResult, next: nat, blanks: seq<Condition>)
    requires StickyDefaultsPresent(schema)
    requires forall i | 0 <= i < |blanks| :: IsBlank(blanks[i])
    ensures var s := Mount(schema, None, parse, next);
      OnSubmit(s.(rows := s.rows + blanks)) == Redirected(None)
  {
    MountWithoutQuery(schema, parse, next);
  }

  /**
   * A form with one sticky field: editing the sticky's value puts it before
   * the rows in the live value, and it is kept when the blank row is dropped
   * on submit.
   */
  lemma EditedStickyLeads(schema: Schema, parse: string -> ParseResult, next: nat, v: JsValue)
    requires StickyDefaultsPresent(schema) && |StickyFields(schema)| == 1
    requires v != StickyFields(schema)[0].stickyDefault.value.value
    ensures var s := SetStickyValue(Mount(schema, None, parse, next), 0, v);
      && LiveValue(s) == Arr([Str("and"), Arr([Wire(s.stickies[0]), BLANK_WIRE])])
      && OnSubmit(s) == Submitted(Arr([Str("and"), Arr([Wire(s.stickies[0])])]))
  {
    MountWithoutQuery(schema, parse, next);
    var m := Mount(schema, None, parse, next);
    EditedOnlySticky(SetStickyValue(m, 0, v));
  }

  /** One edited sticky over a fresh form: it alone leads the live value and is all that is submitted. */
  lemma EditedOnlySticky(s: FormState)
    requires Valid(s) && s.original.None? && s.operation == Str("and")
    requires |StickyFields(s.schema)| == 1 && !AtDefault(s.stickies[0], StickyFields(s.schema)[0])
    requires |s.rows| == 1 && IsBlank(s.rows[0]) && Wire(s.rows[0]) == BLANK_WIRE
    ensures LiveValue(s) == Arr([Str("and"), Arr([Wire(s.stickies[0]), BLANK_WIRE])])
    ensures OnSubmit(s) == Submitted(Arr([Str("and"), Arr([Wire(s.stickies[0])])]))
  {
    EditedOnlyStickyLive(s);
    EditedOnlyStickySubmit(s);
  }

  lemma EditedOnlyStickyLive(s: FormState)
    requires Valid(s) && s.operation == Str("and")
    requires |StickyFields(s.schema)| == 1 && !AtDefault(s.stickies[0], StickyFields(s.schema)[0])
    requires |s.rows| == 1 && Wire(s.rows[0]) == BLANK_WIRE
    ensures LiveValue(s) == Arr([Str("and"), Arr([Wire(s.stickies[0]), BLANK_WIRE])])
  {
    assert EditedStickies(s.stickies, StickyFields(s.schema)) == s.stickies;
    var cs := s.stickies + s.rows;
    assert |cs| == 2 && cs[0] == s.stickies[0] && cs[1] == s.rows[0];
    var ws := WireRows(cs);
    PairOf(ws, Wire(s.stickies[0]), BLANK_WIRE);
  }

  /** A two-element sequence is the pair of its elements. */
  lemma PairOf<T>(ws: seq<T>, a: T, b: T)
    requires |ws| == 2 && ws[0] == a && ws[1] == b
    ensures ws == [a, b]
  {
  }

  lemma EditedOnlyStickySubmit(s: FormState)
    requires Valid(s) && s.operation == Str("and")
    requires |StickyFields(s.schema)| == 1 && !AtDefault(s.stickies[0], StickyFields(s.schema)[0])
    requires |s.rows| == 1 && IsBlank(s.rows[0])
    ensures OnSubmit(s) == Submitted(Arr([Str("and"), Arr([Wire(s.stickies[0])])]))
  {
    assert !IsNoOp(s);
    assert CompleteRows(s.rows) == [];
    assert s.stickies + [] == s.stickies;
    var ws := WireRows(s.stickies);
    assert ws == [Wire(s.stickies[0])];
  }

  /** Cancel ignores every edit and keeps the incoming `q`. */
  lemma CancelKeepsQuery(s: FormState, id: nat, op: string, i: nat, v: JsValue)
    requires i < |s.stickies|
    ensures OnCancel(SetStickyValue(SetOperator(AddRow(s, id), op), i, v)) == Redirected(s.q)
  {
  }
}

=== FILE: condition_row.dfy ===
/**
 * The editable row of the filter form: choosing a field for a row picks a
 * lookup the field offers, keeping the row's lookup and value when the new
 * field offers the same lookup and resetting both otherwise.
 */
module ConditionRow {

  import opened Wrappers
  import opened JsValues
  import opened Query
  import opened FilterSchema

  /** `f` lists `relative` among its lookups. */
  predicate Offers(f: Field, relative: JsValue) {
    relative.Str? && relative.s in f.lookups
  }

  /** The field selector changed to `name` (one of the schema's fields). */
  function OnIdentifierChange(c: Condition, name: string, schema: Schema): (r: Condition)
    requires FindField(schema, name).Some?
    ensures r.id == c.id && r.identifier == Str(name)
    ensures var f := FindField(schema, name).value;
      if Offers(f, c.relative) then r.relative == c.relative && r.value == c.value
      else r.value.Undefined? && r.relative == (if |f.lookups| == 0 then Undefined else Str(f.lookups[0]))
  {
    var f := FindField(schema, name).value;
    if Offers(f, c.relative) then c.(identifier := Str(name))
    else
      var first := if |f.lookups| == 0 then Undefined else Str(f.lookups[0]);
      Condition(c.id, Str(name), first, Undefined)
  }

  /** Whatever the row held before, its lookup afterwards is one the new field offers. */
  lemma RelativeIsOffered(c: Condition, name: string, schema: Schema)
    requires FindField(schema, name).Some?
    ensures var f := FindField(schema, name).value;
      |f.lookups| > 0 <==> Offers(f, OnIdentifierChange(c, name, schema).relative)
  {
  }

  /** Re-selecting the field a row already shows changes nothing. */
  lemma IdentifierChangeIdempotent(c: Condition, name: string, schema: Schema)
    requires FindField(schema, name).Some?
    ensures var r := OnIdentifierChange(c, name, schema);
      OnIdentifierChange(r, name, schema) == r
  {
  }

  /** The value the user typed survives a field change exactly when the lookup does. */
  lemma ValueKeptIffLookupShared(c: Condition, name: string, schema: Schema)
    requires FindField(schema, name).Some?
    requires !c.value.Undefined?
    ensures var r := OnIdentifierChange(c, name, schema);
      r.value == c.value <==> Offers(FindField(schema, name).value, c.relative)
  {
  }

  /** Moving between two fields that share the row's lookup keeps the row as the user left it. */
  lemma SharedLookupRoundTrip(c: Condition, a: string, b: string, schema: Schema)
    requires FindField(schema, a).Some? && FindField(schema, b).Some?
    requires c.identifier == Str(a)
    requires Offers(FindField(schema, a).value, c.relative) && Offers(FindField(schema, b).value, c.relative)
    ensures OnIdentifierChange(OnIdentifierChange(c, b, schema), a, schema) == c
  {
  }

  /** The two string fields of the example schema, `name` then `description`. */
  const EXAMPLE_SCHEMA: Schema := [
    Field("name", ["iexact", "icontains"], false, None),
    Field("description", ["icontains", "iendswith", "istartswith"], false, None)
  ]

  /**
   * The session the row test scripts: pick `description` on a blank row, choose
   * `istartswith` and type; switch to `name` (lookup reset, value cleared);
   * choose `icontains` and type; switch back to `description` (both kept).
   */
  lemma ExampleSession(id: nat)
    ensures var c1 := OnIdentifierChange(Blank(id), "description", EXAMPLE_SCHEMA);
      && c1.relative == Str("icontains")
      && var c2 := OnIdentifierChange(c1.(relative := Str("istartswith"), value := Str("testing startswith")), "name", EXAMPLE_SCHEMA);
      && c2.relative == Str("iexact") && c2.value == Undefined
      && var c3 := OnIdentifierChange(c2.(relative := Str("icontains"), value := Str("testing contains")), "description", EXAMPLE_SCHEMA);
      && c3 == Condition(id, Str("description"), Str("icontains"), Str("testing contains"))
  {
  }
}

=== FILE: filter_schema.dfy ===
/**
 * The filter options schema (`optionsSchema.filters`) as far as the query
 * layer reads it: field names in key order, their lookups, and which fields
 * are sticky with what default.
 */
module FilterSchema {

  import opened Wrappers
  import opened JsValues

  /** `sticky_default`, i.e. `[identifier, {lookup, value}]`, by its three parts. */
  datatype StickyDefault = StickyDefault(identifier: JsValue, lookup: JsValue, value: JsValue)

  /** One schema entry, keyed by `name`. */
  datatype Field = Field(name: string, lookups: seq<string>, isSticky: bool, stickyDefault: Option<StickyDefault>)

  /** The schema's entries in key-iteration order. */
  type Schema = seq<Field>

  /** Every sticky field declares its default (reading it otherwise throws). */
  predicate StickyDefaultsPresent(schema: Schema) {
    forall i | 0 <= i < |schema| :: schema[i].isSticky ==> schema[i].stickyDefault.Some?
  }

  /** Each sticky default names its own field. */
  predicate ConsistentDefaults(schema: Schema) {
    forall i | 0 <= i < |schema| ::
      schema[i].isSticky ==>
        schema[i].stickyDefault.Some? && schema[i].stickyDefault.value.identifier == Str(schema[i].name)
  }

  /** The `is_sticky` entries, in schema order. */
  function StickyFields(schema: Schema): (r: Schema)
    ensures forall i | 0 <= i < |r| :: r[i].isSticky && r[i] in schema
    ensures forall i | 0 <= i < |schema| :: schema[i].isSticky ==> schema[i] in r
    ensures StickyDefaultsPresent(schema) ==> StickyDefaultsPresent(r)
    ensures ConsistentDefaults(schema) ==> ConsistentDefaults(r)
  {
    if |schema| == 0 then []
    else (if schema[0].isSticky then [schema[0]] else []) + StickyFields(schema[1..])
  }

  /** Filtering keeps schema order: the sticky fields of a concatenation concatenate. */
  lemma {:induction false} StickyFieldsAppend(a: Schema, b: Schema)
    ensures StickyFields(a + b) == StickyFields(a) + StickyFields(b)
    decreases |a|
  {
    if |a| == 0 {
      assert a + b == b;
    } else {
      assert (a + b)[1..] == a[1..] + b;
      StickyFieldsAppend(a[1..], b);
    }
  }

  /** The first entry called `name`, if any. */
  function FindField(schema: Schema, name: string): (r: Option<Field>)
    ensures r.Some? ==> r.value in schema && r.value.name == name
    ensures r.None? <==> forall i | 0 <= i < |schema| :: schema[i].name != name
  {
    if |schema| == 0 then None
    else if schema[0].name == name then Some(schema[0])
    else FindField(schema[1..], name)
  }
}

=== FILE: js_value.dfy ===
/**
 * The JavaScript values the query layer handles: what `JSON.parse` produces,
 * plus `undefined` for unset condition fields. Numbers are integers here.
 */
module JsValues {

  import opened Wrappers

  datatype JsValue =
    | Undefined
    | Null
    | Bool(b: bool)
    | Num(n: int)
    | Str(s: string)
    | Arr(items: seq<JsValue>)
    | Obj(fields: seq<(string, JsValue)>)

  /** JavaScript truthiness (`if (v)`). */
  predicate Truthy(v: JsValue)
    ensures Truthy(v) ==> !v.Undefined? && !v.Null?
    ensures v.Arr? || v.Obj? ==> Truthy(v)
  {
    match v
    case Undefined => false
    case Null => false
    case Bool(b) => b
    case Num(n) => n != 0
    case Str(s) => s != ""
    case Arr(_) => true
    case Obj(_) => true
  }

  /** A value JSON can carry: no `undefined` anywhere inside it. */
  predicate IsJson(v: JsValue)
    ensures IsJson(v) ==> !v.Undefined?
    decreases v
  {
    match v
    case Undefined => false
    case Arr(items) => forall i | 0 <= i < |items| :: IsJson(items[i])
    case Obj(fields) => forall i | 0 <= i < |fields| :: IsJson(fields[i].1)
    case _ => true
  }

  /** Property access `obj[key]`: the member's value, or `undefined` when absent. */
  function Member(fields: seq<(string, JsValue)>, key: string): (r: JsValue)
    ensures r != Undefined ==> exists i | 0 <= i < |fields| :: fields[i] == (key, r)
    ensures (forall i | 0 <= i < |fields| :: fields[i].0 != key) ==> r == Undefined
  {
    if |fields| == 0 then Undefined
    else if fields[0].0 == key then fields[0].1
    else Member(fields[1..], key)
  }

  /** Member `i` is the first one with the key. */
  predicate FirstWithKey(fields: seq<(string, JsValue)>, key: string, i: int) {
    0 <= i < |fields| && fields[i].0 == key && forall j | 0 <= j < i :: fields[j].0 != key
  }

  /** Property access reads the first member with the key. */
  lemma {:induction false} MemberFirst(fields: seq<(string, JsValue)>, key: string, i: nat)
    requires FirstWithKey(fields, key, i)
    ensures Member(fields, key) == fields[i].1
    decreases i
  {
    if i > 0 {
      assert fields[0].0 != key;
      assert FirstWithKey(fields[1..], key, i - 1);
      MemberFirst(fields[1..], key, i - 1);
    }
  }

  /**
   * The tree `JSON.stringify` writes out: `undefined` inside an array becomes
   * `null`, an object member whose value is `undefined` is left out.
   * A JSON value is written as it is.
   */
  function Stringify(v: JsValue): (r: JsValue)
    ensures v != Undefined ==> IsJson(r)
    ensures IsJson(v) ==> r == v
    ensures v.Arr? ==> r.Arr? && |r.items| == |v.items| && forall i | 0 <= i < |v.items| :: v.items[i].Undefined? ==> r.items[i] == Null
    decreases v
  {
    match v
    case Arr(items) =>
      var out := seq(|items|, i requires 0 <= i < |items| =>
        if items[i].Undefined? then Null else Stringify(items[i]));
      assert IsJson(v) ==> forall i | 0 <= i < |items| :: IsJson(items[i]) && !items[i].Undefined?;
      assert IsJson(v) ==> forall i | 0 <= i < |items| :: out[i] == items[i];
      Arr(out)
    case Obj(fields) =>
      var written := seq(|fields|, i requires 0 <= i < |fields| =>
        if fields[i].1.Undefined? then None else Some((fields[i].0, Stringify(fields[i].1))));
      assert IsJson(v) ==> forall i | 0 <= i < |fields| :: IsJson(fields[i].1) && written[i] == Some(fields[i]);
      Obj(Present(written))
    case _ => v
  }

  /** The entries of `w` that are present, in order. */
  function Present<T>(w: seq<Option<T>>): (r: seq<T>)
    ensures forall i | 0 <= i < |r| :: Some(r[i]) in w
    ensures (forall i | 0 <= i < |w| :: w[i].Some?) ==> r == seq(|w|, i requires 0 <= i < |w| => w[i].value)
  {
    if |w| == 0 then []
    else if w[0].None? then Present(w[1..])
    else [w[0].value] + Present(w[1..])
  }

  /** Writing an array with no `undefined` item writes each item in place. */
  lemma StringifyArray(items: seq<JsValue>)
    requires forall i | 0 <= i < |items| :: !items[i].Undefined?
    ensures Stringify(Arr(items)) == Arr(seq(|items|, i requires 0 <= i < |items| => Stringify(items[i])))
  {
  }

  /** A two-item array whose head is already JSON writes its head as is and its tail in written form. */
  lemma StringifyPair(a: JsValue, b: JsValue)
    requires IsJson(a) && !b.Undefined?
    ensures Stringify(Arr([a, b])) == Arr([a, Stringify(b)])
  {
    var top := [a, b];
    StringifyArray(top);
    var written := seq(|top|, i requires 0 <= i < |top| => Stringify(top[i]));
    assert written[0] == a && written[1] == Stringify(b);
    assert written == [a, Stringify(b)];
  }
}

=== FILE: lookup_mapping.dfy ===
/**
 * The words the read-only listing shows for an operator ("Results match
 * <label> of:") and for a lookup, as two finite partial maps.
 */
module LookupMapping {

  import opened Wrappers

  /** Operator name to the word read as "<word> of". */
  const OPERATOR_MAP: map<string, string> := map["and" := "all", "or" := "any", "not" := "none"]

  /** Lookup name to its label. */
  const LOOKUP_MAP: map<string, string> := map[
    "istartswith" := "starts with",
    "iendswith" := "ends with",
    "icontains" := "contains",
    "iexact" := "equals",
    "exact" := "equals"
  ]

  /** The members every JavaScript object literal inherits from `Object.prototype`. */
  const PROTOTYPE_MEMBERS: set<string> := {
    "constructor", "toString", "toLocaleString", "valueOf", "hasOwnProperty",
    "isPrototypeOf", "propertyIsEnumerable", "__proto__", "__defineGetter__",
    "__defineSetter__", "__lookupGetter__", "__lookupSetter__"
  }

  /** What `object[key]` yields on an object literal: its own string, an inherited member, or `undefined`. */
  datatype PropertyValue = Own(text: string) | Inherited(member: string) | Missing

  /** Bracket indexing of an object literal whose own properties are `own`. */
  function ReadProperty(own: map<string, string>, key: string): (r: PropertyValue)
    ensures r.Own? <==> key in own
    ensures r.Own? ==> r.text == own[key]
    ensures r.Inherited? <==> key !in own && key in PROTOTYPE_MEMBERS
  {
    if key in own then Own(own[key])
    else if key in PROTOTYPE_MEMBERS then Inherited(key)
    else Missing
  }

  /** `operatorToLabel` as written: a plain index into the operator object. */
  function OperatorToLabelAsWritten(op: string): (r: PropertyValue)
    ensures r.Missing? ==> op !in OPERATOR_MAP
  {
    ReadProperty(OPERATOR_MAP, op)
  }

  /** `lookupToLabel` as written: a plain index into the lookup object. */
  function LookupToLabelAsWritten(lookup: string): (r: PropertyValue)
    ensures r.Missing? ==> lookup !in LOOKUP_MAP
  {
    ReadProperty(LOOKUP_MAP, lookup)
  }

  /** An operator named after an inherited member gets a function, not `undefined`. */
  lemma OperatorInheritedMember()
    ensures OperatorToLabelAsWritten("constructor") == Inherited("constructor")
    ensures LookupToLabelAsWritten("toString") == Inherited("toString")
  {
    assert "constructor" !in OPERATOR_MAP;
    assert "toString" !in LOOKUP_MAP;
  }

  /** The label of an operator; `None` where the listing has no word for it. */
  function OperatorToLabel(op: string): (r: Option<string>)
    ensures r == Some("all") <==> op == "and"
    ensures r == Some("any") <==> op == "or"
    ensures r == Some("none") <==> op == "not"
    ensures r.None? <==> op !in {"and", "or", "not"}
  {
    if op in OPERATOR_MAP then Some(OPERATOR_MAP[op]) else None
  }

  /** The label of a lookup; `None` where the listing has no word for it. */
  function LookupToLabel(lookup: string): (r: Option<string>)
    ensures r == Some("starts with") <==> lookup == "istartswith"
    ensures r == Some("ends with") <==> lookup == "iendswith"
    ensures r == Some("contains") <==> lookup == "icontains"
    ensures r == Some("equals") <==> lookup in {"iexact", "exact"}
    ensures r.None? <==> lookup !in {"istartswith", "iendswith", "icontains", "iexact", "exact"}
  {
    if lookup in LOOKUP_MAP then Some(LOOKUP_MAP[lookup]) else None
  }

  /** The corrected lookups agree with plain indexing on every own key and read inherited names as unmapped. */
  lemma LabelsAgreeWithIndexing(key: string)
    ensures OperatorToLabel(key).Some? <==> OperatorToLabelAsWritten(key).Own?
    ensures OperatorToLabel(key).Some? ==> OperatorToLabel(key).value == OperatorToLabelAsWritten(key).text
    ensures LookupToLabel(key).Some? <==> LookupToLabelAsWritten(key).Own?
    ensures LookupToLabel(key).Some? ==> LookupToLabel(key).value == LookupToLabelAsWritten(key).text
    ensures key in PROTOTYPE_MEMBERS ==> OperatorToLabel(key).None? && LookupToLabel(key).None?
  {
  }

  /** Distinct operators read differently, so the label names the operator. */
  lemma OperatorLabelsDistinct(a: string, b: string)
    requires OperatorToLabel(a).Some? && OperatorToLabel(a) == OperatorToLabel(b)
    ensures a == b
  {
  }

  /** Two lookups share a label, so a label alone does not name its lookup. */
  lemma LookupLabelsShared()
    ensures LookupToLabel("exact") == LookupToLabel("iexact") == Some("equals")
    ensures exists a: string, b: string :: a != b && LookupToLabel(a).Some? && LookupToLabel(a) == LookupToLabel(b)
  {
    assert "exact" != "iexact";
    assert LookupToLabel("exact") == LookupToLabel("iexact");
  }

  /** The preamble over an `or` grouping reads "Results match any of:". */
  lemma OrPreamble()
    ensures OperatorToLabel("or").Some? && "Results match " + OperatorToLabel("or").value + " of:" == "Results match any of:"
  {
  }
}

=== FILE: query.dfy ===
/**
 * The query value objects: a `Condition` is one (identifier, lookup, value)
 * row, a `Grouping` is an operator over an ordered sequence of conditions.
 * Each condition carries a correlation id that the UI uses to track rows;
 * the id never reaches the serialised form.
 */
module Query {

  import opened Wrappers
  import opened JsValues

  datatype Condition = Condition(id: nat, identifier: JsValue, relative: JsValue, value: JsValue)

  datatype Grouping = Grouping(operation: JsValue, conditions: seq<Condition>)

  /** A field counts as unset when it is `undefined` or `null`. */
  predicate Unset(v: JsValue) {
    v.Undefined? || v.Null?
  }

  /** Every field unset: the row "add row" creates. */
  predicate IsBlank(c: Condition) {
    Unset(c.identifier) && Unset(c.relative) && Unset(c.value)
  }

  /** Every field set: the only non-sticky rows that are submitted. */
  predicate IsComplete(c: Condition) {
    !Unset(c.identifier) && !Unset(c.relative) && !Unset(c.value)
  }

  /** Structural equality, ignoring the correlation id. */
  predicate SameFields(a: Condition, b: Condition) {
    a.identifier == b.identifier && a.relative == b.relative && a.value == b.value
  }

  predicate SameConditions(a: seq<Condition>, b: seq<Condition>) {
    |a| == |b| && forall i | 0 <= i < |a| :: SameFields(a[i], b[i])
  }

  /** `new Condition()`: all three fields left `undefined`. */
  function Blank(id: nat): (c: Condition)
    ensures c.id == id
    ensures IsBlank(c) && !IsComplete(c)
  {
    Condition(id, Undefined, Undefined, Undefined)
  }

  /** The shapes `Condition.fromObject` accepts: `[identifier, {…}]`. */
  predicate IsConditionShape(o: JsValue) {
    o.Arr? && |o.items| == 2 && o.items[1].Obj?
  }

  /** The shapes `Grouping.fromObject` accepts: `[operation, [condition, …]]`. */
  predicate IsGroupingShape(o: JsValue) {
    && o.Arr? && |o.items| == 2 && o.items[1].Arr?
    && forall i | 0 <= i < |o.items[1].items| :: IsConditionShape(o.items[1].items[i])
  }

  /**
   * A condition as `JSON.stringify` writes it: a JSON identifier and an
   * object holding `lookup` and/or `value`, in that order, nothing else.
   */
  predicate IsCanonicalCondition(o: JsValue)
    ensures IsCanonicalCondition(o) ==> IsJson(o)
  {
    && IsConditionShape(o)
    && IsJson(o.items[0])
    && var fs := o.items[1].fields;
    && |fs| <= 2
    && (forall i | 0 <= i < |fs| :: IsJson(fs[i].1))
    && (|fs| == 1 ==> fs[0].0 == "lookup" || fs[0].0 == "value")
    && (|fs| == 2 ==> fs[0].0 == "lookup" && fs[1].0 == "value")
  }

  predicate IsCanonicalGrouping(o: JsValue)
    ensures IsCanonicalGrouping(o) ==> IsJson(o)
  {
    && IsGroupingShape(o)
    && IsJson(o.items[0])
    && forall i | 0 <= i < |o.items[1].items| :: IsCanonicalCondition(o.items[1].items[i])
  }

  /** `condition.toObject()`: `[identifier, {lookup: relative, value}]`. */
  function ConditionToObject(c: Condition): (o: JsValue)
    ensures IsConditionShape(o)
    ensures !o.Undefined?
    ensures o.items[0] == c.identifier
    ensures Member(o.items[1].fields, "lookup") == c.relative && Member(o.items[1].fields, "value") == c.value
  {
    Arr([c.identifier, Obj([("lookup", c.relative), ("value", c.value)])])
  }

  /** `Condition.fromObject(o)`, giving the new row the correlation id `id`. */
  function ConditionFromObject(o: JsValue, id: nat): (c: Condition)
    requires IsConditionShape(o)
    ensures c.id == id
    ensures c.identifier == o.items[0]
    ensures !c.relative.Undefined? ==> exists i | 0 <= i < |o.items[1].fields| :: o.items[1].fields[i] == ("lookup", c.relative)
    ensures !c.value.Undefined? ==> exists i | 0 <= i < |o.items[1].fields| :: o.items[1].fields[i] == ("value", c.value)
    ensures (forall i | 0 <= i < |o.items[1].fields| :: o.items[1].fields[i].0 != "lookup") ==> c.relative.Undefined?
    ensures (forall i | 0 <= i < |o.items[1].fields| :: o.items[1].fields[i].0 != "value") ==> c.value.Undefined?
    ensures forall i | FirstWithKey(o.items[1].fields, "lookup", i) :: c.relative == o.items[1].fields[i].1
    ensures forall i | FirstWithKey(o.items[1].fields, "value", i) :: c.value == o.items[1].fields[i].1
  {
    var fields := o.items[1].fields;
    forall i | FirstWithKey(fields, "lookup", i) ensures Member(fields, "lookup") == fields[i].1 {
      MemberFirst(fields, "lookup", i);
    }
    forall i | FirstWithKey(fields, "value", i) ensures Member(fields, "value") == fields[i].1 {
      MemberFirst(fields, "value", i);
    }
    Condition(id, o.items[0], Member(fields, "lookup"), Member(fields, "value"))
  }

  /** Serialising and reading back restores every field; only the id is new. */
  lemma ConditionRoundTrip(c: Condition, id: nat)
    ensures SameFields(ConditionFromObject(ConditionToObject(c), id), c)
  {
    var fields := [("lookup", c.relative), ("value", c.value)];
    assert fields[1..] == [("value", c.value)];
    assert Member(fields, "value") == c.value;
  }

  /** What `JSON.stringify` writes for one condition. */
  lemma StringifyCondition(c: Condition)
    ensures Stringify(ConditionToObject(c)) == Arr([
      if c.identifier.Undefined? then Null else Stringify(c.identifier),
      Obj(Present([
        if c.relative.Undefined? then None else Some(("lookup", Stringify(c.relative))),
        if c.value.Undefined? then None else Some(("value", Stringify(c.value)))]))])
  {
    var fields := [("lookup", c.relative), ("value", c.value)];
    var written := seq(|fields|, i requires 0 <= i < |fields| =>
      if fields[i].1.Undefined? then None else Some((fields[i].0, Stringify(fields[i].1))));
    assert written == [
      if c.relative.Undefined? then None else Some(("lookup", Stringify(c.relative))),
      if c.value.Undefined? then None else Some(("value", Stringify(c.value)))];
    var obj := Obj(fields);
    assert Stringify(obj) == Obj(Present(written));
    var items := [c.identifier, obj];
    var out := seq(|items|, i requires 0 <= i < |items| =>
      if items[i].Undefined? then Null else Stringify(items[i]));
    assert Stringify(Arr(items)) == Arr(out);
    assert out == [if c.identifier.Undefined? then Null else Stringify(c.identifier), Stringify(obj)];
  }

  /** A condition in its written form reads in and writes back unchanged. */
  lemma ConditionWireRoundTrip(o: JsValue, id: nat)
    requires IsCanonicalCondition(o)
    ensures Stringify(ConditionToObject(ConditionFromObject(o, id))) == o
  {
    var c := ConditionFromObject(o, id);
    StringifyCondition(c);
    CanonicalFieldsWritten(o, id);
    assert o == Arr([o.items[0], Obj(o.items[1].fields)]);
  }

  /** The members of a written condition are what writing the row read from it keeps. */
  lemma CanonicalFieldsWritten(o: JsValue, id: nat)
    requires IsCanonicalCondition(o)
    ensures var c := ConditionFromObject(o, id);
      Present([
        if c.relative.Undefined? then None else Some(("lookup", Stringify(c.relative))),
        if c.value.Undefined? then None else Some(("value", Stringify(c.value)))]) == o.items[1].fields
  {
    var fs := o.items[1].fields;
    var c := ConditionFromObject(o, id);
    var w := [
      if c.relative.Undefined? then None else Some(("lookup", Stringify(c.relative))),
      if c.value.Undefined? then None else Some(("value", Stringify(c.value)))];
    assert w[1..] == [w[1]];
    if |fs| == 0 {
      assert c.relative == Undefined && c.value == Undefined;
    } else if |fs| == 1 {
      assert fs[1..] == [];
      if fs[0].0 == "lookup" {
        assert FirstWithKey(fs, "lookup", 0);
        assert c.relative == fs[0].1 && c.value == Undefined;
      } else {
        assert FirstWithKey(fs, "value", 0);
        assert c.relative == Undefined && c.value == fs[0].1;
      }
    } else {
      assert FirstWithKey(fs, "lookup", 0) && FirstWithKey(fs, "value", 1);
      assert c.relative == fs[0].1 && c.value == fs[1].1;
      assert w[1..][1..] == [];
      assert fs == [fs[0], fs[1]];
    }
  }

  /** `grouping.toObject()`: `[operation, [condition.toObject(), …]]`, in order. */
  function GroupingToObject(g: Grouping): (o: JsValue)
    ensures IsGroupingShape(o)
    ensures o.items[0] == g.operation
    ensures |o.items[1].items| == |g.conditions|
    ensures forall i | 0 <= i < |g.conditions| :: o.items[1].items[i] == ConditionToObject(g.conditions[i])
  {
    Arr([g.operation, Arr(seq(|g.conditions|, i requires 0 <= i < |g.conditions| =>
      ConditionToObject(g.conditions[i])))])
  }

  /** `Grouping.fromObject(o)`, numbering the new rows' ids from `next`. */
  function GroupingFromObject(o: JsValue, next: nat): (g: Grouping)
    requires IsGroupingShape(o)
    ensures g.operation == o.items[0]
    ensures |g.conditions| == |o.items[1].items|
    ensures UniqueIds(g.conditions)
    ensures forall i | 0 <= i < |g.conditions| :: next <= g.conditions[i].id < next + |g.conditions|
    ensures forall i | 0 <= i < |g.conditions| :: g.conditions[i] == ConditionFromObject(o.items[1].items[i], next + i)
  {
    var items := o.items[1].items;
    Grouping(o.items[0], seq(|items|, i requires 0 <= i < |items| =>
      ConditionFromObject(items[i], next + i)))
  }

  lemma GroupingRoundTrip(g: Grouping, next: nat)
    ensures GroupingFromObject(GroupingToObject(g), next).operation == g.operation
    ensures SameConditions(GroupingFromObject(GroupingToObject(g), next).conditions, g.conditions)
  {
    var back := GroupingFromObject(GroupingToObject(g), next).conditions;
    forall i | 0 <= i < |g.conditions|
      ensures SameFields(back[i], g.conditions[i])
    {
      ConditionRoundTrip(g.conditions[i], next + i);
    }
  }

  lemma GroupingWireRoundTrip(o: JsValue, next: nat)
    requires IsCanonicalGrouping(o)
    ensures Stringify(GroupingToObject(GroupingFromObject(o, next))) == o
  {
    var op := o.items[0];
    var items := o.items[1].items;
    var g := GroupingFromObject(o, next);
    var objs := seq(|g.conditions|, i requires 0 <= i < |g.conditions| =>
      ConditionToObject(g.conditions[i]));
    assert GroupingToObject(g) == Arr([op, Arr(objs)]);
    RowsWireRoundTrip(o, next);
    StringifyPair(op, Arr(objs));
    assert o == Arr([op, Arr(items)]);
  }

  /** The rows of a written grouping, read in and written out, are the items they came from. */
  lemma RowsWireRoundTrip(o: JsValue, next: nat)
    requires IsCanonicalGrouping(o)
    ensures var g := GroupingFromObject(o, next);
      Stringify(Arr(seq(|g.conditions|, i requires 0 <= i < |g.conditions| => ConditionToObject(g.conditions[i]))))
        == o.items[1]
  {
    var items := o.items[1].items;
    var g := GroupingFromObject(o, next);
    var objs := seq(|g.conditions|, i requires 0 <= i < |g.conditions| =>
      ConditionToObject(g.conditions[i]));
    forall i | 0 <= i < |items|
      ensures Stringify(objs[i]) == items[i]
    {
      ConditionWireRoundTrip(items[i], next + i);
    }
    StringifyArray(objs);
    var written := seq(|objs|, i requires 0 <= i < |objs| => Stringify(objs[i]));
    assert written == items;
  }

  /** Correlation ids tell rows apart. */
  predicate UniqueIds(cs: seq<Condition>) {
    forall i, j | 0 <= i < j < |cs| :: cs[i].id != cs[j].id
  }

  predicate IdsBelow(cs: seq<Condition>, bound: nat) {
    forall i | 0 <= i < |cs| :: cs[i].id < bound
  }

  function IdsOf(cs: seq<Condition>): set<nat> {
    set i | 0 <= i < |cs| :: cs[i].id
  }

  /** `grouping.addConditions(...cs)`: appended at the end, in order. */
  function AddConditions(g: Grouping, cs: seq<Condition>): (r: Grouping)
    ensures r.operation == g.operation
    ensures |r.conditions| == |g.conditions| + |cs|
    ensures r.conditions[..|g.conditions|] == g.conditions
    ensures r.conditions[|g.conditions|..] == cs
  {
    Grouping(g.operation, g.conditions + cs)
  }

  /** `grouping.removeConditions(...cs)`: drops the rows whose id is one of theirs. */
  function RemoveConditions(g: Grouping, cs: seq<Condition>): (r: Grouping)
    ensures r.operation == g.operation
    ensures forall c :: c in r.conditions <==> c in g.conditions && c.id !in IdsOf(cs)
  {
    Grouping(g.operation, Without(g.conditions, IdsOf(cs)))
  }

  /** The rows of `cs` whose id is not in `ids`, in their original order. */
  function Without(cs: seq<Condition>, ids: set<nat>): (r: seq<Condition>)
    ensures forall c :: c in r <==> c in cs && c.id !in ids
    ensures |r| <= |cs|
  {
    if |cs| == 0 then []
    else (if cs[0].id in ids then [] else [cs[0]]) + Without(cs[1..], ids)
  }

  /** Removal works piecewise, so the survivors keep their relative order. */
  lemma {:induction false} WithoutAppend(a: seq<Condition>, b: seq<Condition>, ids: set<nat>)
    ensures Without(a + b, ids) == Without(a, ids) + Without(b, ids)
    decreases |a|
  {
    if |a| == 0 {
      assert a + b == b;
    } else {
      assert (a + b)[1..] == a[1..] + b;
      WithoutAppend(a[1..], b, ids);
    }
  }

  /** Removing conditions that are not present changes nothing. */
  lemma {:induction false} WithoutAbsent(cs: seq<Condition>, ids: set<nat>)
    requires forall i | 0 <= i < |cs| :: cs[i].id !in ids
    ensures Without(cs, ids) == cs
    decreases |cs|
  {
    if |cs| > 0 {
      WithoutAbsent(cs[1..], ids);
    }
  }

  /** Removing every row's id leaves nothing. */
  lemma {:induction false} WithoutAll(cs: seq<Condition>, ids: set<nat>)
    requires forall i | 0 <= i < |cs| :: cs[i].id in ids
    ensures Without(cs, ids) == []
    decreases |cs|
  {
    if |cs| > 0 {
      WithoutAll(cs[1..], ids);
    }
  }

  /** Only the ids that occur in `cs` matter to the removal. */
  lemma {:induction false} WithoutSameOnRows(cs: seq<Condition>, a: set<nat>, b: set<nat>)
    requires forall i | 0 <= i < |cs| :: cs[i].id in a <==> cs[i].id in b
    ensures Without(cs, a) == Without(cs, b)
    decreases |cs|
  {
    if |cs| > 0 {
      WithoutSameOnRows(cs[1..], a, b);
    }
  }

  /** Removing freshly added conditions gives back the grouping. */
  lemma RemoveUndoesAdd(g: Grouping, cs: seq<Condition>)
    requires forall i, j | 0 <= i < |g.conditions| && 0 <= j < |cs| :: g.conditions[i].id != cs[j].id
    ensures RemoveConditions(AddConditions(g, cs), cs) == g
  {
    WithoutAppend(g.conditions, cs, IdsOf(cs));
    WithoutAbsent(g.conditions, IdsOf(cs));
    WithoutAll(cs, IdsOf(cs));
  }
}

=== FILE: use_query_filters.dfy ===
/**
 * Loading the filter query from the `q` location parameter and splitting out
 * the sticky conditions (the `useQueryFilters` composable).
 */
module QueryFilters {

  import opened Wrappers
  import opened JsValues
  import opened Query
  import opened FilterSchema

  // ---------------------------------------------------------------------------
  // Sticky conditions
  // ---------------------------------------------------------------------------

  /** The condition holds exactly the field's sticky default. */
  predicate AtDefault(c: Condition, f: Field) {
    && f.stickyDefault.Some?
    && c.identifier == f.stickyDefault.value.identifier
    && c.relative == f.stickyDefault.value.lookup
    && c.value == f.stickyDefault.value.value
  }

  /** `new Condition(sticky_default[0], sticky_default[1].lookup, sticky_default[1].value)`. */
  function DefaultCondition(f: Field, id: nat): (c: Condition)
    requires f.stickyDefault.Some?
    ensures c.id == id && AtDefault(c, f)
  {
    var d := f.stickyDefault.value;
    Condition(id, d.identifier, d.lookup, d.value)
  }

  /** The position of the first row whose identifier is `name`. */
  function FirstMatch(cs: seq<Condition>, name: string): (r: Option<nat>)
    ensures r.Some? ==> r.value < |cs| && cs[r.value].identifier == Str(name)
    ensures r.Some? ==> forall j | 0 <= j < r.value :: cs[j].identifier != Str(name)
    ensures r.None? ==> forall j | 0 <= j < |cs| :: cs[j].identifier != Str(name)
  {
    if |cs| == 0 then None
    else if cs[0].identifier == Str(name) then Some(0)
    else match FirstMatch(cs[1..], name)
      case Some(k) => Some(k + 1)
      case None => None
  }

  /**
   * `c` is the sticky condition for field `f` among rows `cs`: the first row
   * naming the field, or, when no row names it, the default built with `id`.
   */
  predicate IsStickyFor(cs: seq<Condition>, f: Field, id: nat, c: Condition) {
    || (exists k | 0 <= k < |cs| ::
          && cs[k].identifier == Str(f.name)
          && c == cs[k]
          && forall j | 0 <= j < k :: cs[j].identifier != Str(f.name))
    || (&& (forall k | 0 <= k < |cs| :: cs[k].identifier != Str(f.name))
        && f.stickyDefault.Some?
        && c == DefaultCondition(f, id))
  }

  function ChooseSticky(cs: seq<Condition>, f: Field, id: nat): (c: Condition)
    requires f.stickyDefault.Some?
    ensures IsStickyFor(cs, f, id, c)
  {
    match FirstMatch(cs, f.name)
    case Some(k) => cs[k]
    case None => DefaultCondition(f, id)
  }

  /** The sticky for each of `fields`, defaults numbered from `next`. */
  function ChooseStickies(cs: seq<Condition>, fields: Schema, next: nat): (r: seq<Condition>)
    requires forall i | 0 <= i < |fields| :: fields[i].stickyDefault.Some?
    ensures |r| == |fields|
    ensures forall i | 0 <= i < |fields| :: r[i] == ChooseSticky(cs, fields[i], next + i)
  {
    seq(|fields|, i requires 0 <= i < |fields| => ChooseSticky(cs, fields[i], next + i))
  }

  /** The sticky conditions and what remains of the grouping. */
  datatype Extraction = Extraction(stickies: seq<Condition>, grouping: Grouping)

  /**
   * `extractStickyConditions(grouping, optionsSchema)`: one sticky per sticky
   * field, in schema order; the chosen rows are removed from the grouping.
   * Defaults built here take the ids `next`, `next + 1`, ….
   */
  function ExtractStickyConditions(g: Grouping, schema: Schema, next: nat): (r: Extraction)
    requires StickyDefaultsPresent(schema)
    ensures |r.stickies| == |StickyFields(schema)|
    ensures forall i | 0 <= i < |r.stickies| ::
      IsStickyFor(g.conditions, StickyFields(schema)[i], next + i, r.stickies[i])
    ensures r.grouping.operation == g.operation
    ensures forall c | c in r.grouping.conditions :: c in g.conditions
  {
    var stickies := ChooseStickies(g.conditions, StickyFields(schema), next);
    Extraction(stickies, RemoveConditions(g, stickies))
  }

  /** The names of the sticky fields. */
  function StickyNames(fields: Schema): set<string> {
    set i | 0 <= i < |fields| :: fields[i].name
  }

  /** Row `k` is the first row naming some sticky field. */
  predicate IsFirstSticky(cs: seq<Condition>, k: nat, fields: Schema)
    requires k < |cs|
  {
    && cs[k].identifier.Str?
    && cs[k].identifier.s in StickyNames(fields)
    && forall j | 0 <= j < k :: cs[j].identifier != cs[k].identifier
  }

  /** The ids of the rows extraction takes out. */
  function FirstStickyIds(cs: seq<Condition>, fields: Schema): set<nat> {
    set k | 0 <= k < |cs| && IsFirstSticky(cs, k, fields) :: cs[k].id
  }

  /** A row whose id some sticky carries is that sticky, and the first row for its field. */
  lemma StickyIdIsFirstRow(cs: seq<Condition>, fields: Schema, next: nat, stickies: seq<Condition>, m: nat)
    requires forall i | 0 <= i < |fields| :: fields[i].stickyDefault.Some?
    requires UniqueIds(cs) && IdsBelow(cs, next)
    requires |stickies| == |fields|
    requires forall i | 0 <= i < |fields| :: stickies[i] == ChooseSticky(cs, fields[i], next + i)
    requires m < |cs| && cs[m].id in IdsOf(stickies)
    ensures IsFirstSticky(cs, m, fields) && cs[m] in stickies
  {
    var i :| 0 <= i < |stickies| && stickies[i].id == cs[m].id;
    match FirstMatch(cs, fields[i].name)
    case Some(k) =>
      assert stickies[i] == cs[k];
      assert k == m;
      assert fields[i].name in StickyNames(fields);
    case None =>
      assert false;
  }

  /** The first row for a sticky field is one of the stickies. */
  lemma FirstRowIsSticky(cs: seq<Condition>, fields: Schema, next: nat, stickies: seq<Condition>, m: nat)
    requires forall i | 0 <= i < |fields| :: fields[i].stickyDefault.Some?
    requires |stickies| == |fields|
    requires forall i | 0 <= i < |fields| :: stickies[i] == ChooseSticky(cs, fields[i], next + i)
    requires m < |cs| && IsFirstSticky(cs, m, fields)
    ensures cs[m] in stickies
  {
    var i :| 0 <= i < |fields| && fields[i].name == cs[m].identifier.s;
    match FirstMatch(cs, fields[i].name)
    case Some(k) =>
      assert k == m;
      assert stickies[i] == cs[m];
    case None =>
      assert false;
  }

  /** A row's id is a sticky's id exactly when the row is the first for some sticky field. */
  lemma StickyIdOfRow(g: Grouping, schema: Schema, next: nat, m: nat)
    requires StickyDefaultsPresent(schema)
    requires UniqueIds(g.conditions) && IdsBelow(g.conditions, next)
    requires m < |g.conditions|
    ensures var r := ExtractStickyConditions(g, schema, next);
      && (g.conditions[m].id in IdsOf(r.stickies) <==> IsFirstSticky(g.conditions, m, StickyFields(schema)))
      && (g.conditions[m].id in IdsOf(r.stickies) <==> g.conditions[m] in r.stickies)
  {
    var cs := g.conditions;
    var fields := StickyFields(schema);
    var stickies := ChooseStickies(cs, fields, next);
    assert stickies == ExtractStickyConditions(g, schema, next).stickies;
    if cs[m].id in IdsOf(stickies) {
      StickyIdIsFirstRow(cs, fields, next, stickies, m);
    }
    if IsFirstSticky(cs, m, fields) {
      FirstRowIsSticky(cs, fields, next, stickies, m);
    }
    if cs[m] in stickies {
      var i :| 0 <= i < |stickies| && stickies[i] == cs[m];
    }
  }

  /**
   * After extraction the grouping holds the original rows minus the first
   * row of each sticky field, in the original order; the freshly built
   * defaults were never rows, so removing them changes nothing.
   */
  lemma ExtractRemainder(g: Grouping, schema: Schema, next: nat)
    requires StickyDefaultsPresent(schema)
    requires UniqueIds(g.conditions) && IdsBelow(g.conditions, next)
    ensures var r := ExtractStickyConditions(g, schema, next);
      && r.grouping.conditions == Without(g.conditions, FirstStickyIds(g.conditions, StickyFields(schema)))
      && forall c :: c in r.grouping.conditions <==> c in g.conditions && c !in r.stickies
  {
    var cs := g.conditions;
    var fields := StickyFields(schema);
    var r := ExtractStickyConditions(g, schema, next);
    forall m | 0 <= m < |cs|
      ensures cs[m].id in IdsOf(r.stickies) <==> cs[m].id in FirstStickyIds(cs, fields)
      ensures cs[m].id in IdsOf(r.stickies) <==> cs[m] in r.stickies
    {
      StickyIdOfRow(g, schema, next, m);
      if cs[m].id in FirstStickyIds(cs, fields) {
        var k :| 0 <= k < |cs| && IsFirstSticky(cs, k, fields) && cs[k].id == cs[m].id;
        assert k == m;
      }
    }
    WithoutSameOnRows(cs, IdsOf(r.stickies), FirstStickyIds(cs, fields));
  }

  /**
   * Rows that name no sticky field, and repeated rows for a sticky field
   * after its first, stay in the grouping.
   */
  lemma ExtractKeepsOthers(g: Grouping, schema: Schema, next: nat, k: nat)
    requires StickyDefaultsPresent(schema)
    requires UniqueIds(g.conditions) && IdsBelow(g.conditions, next)
    requires k < |g.conditions|
    requires || !g.conditions[k].identifier.Str?
             || g.conditions[k].identifier.s !in StickyNames(StickyFields(schema))
             || exists j | 0 <= j < k :: g.conditions[j].identifier == g.conditions[k].identifier
    ensures g.conditions[k] in ExtractStickyConditions(g, schema, next).grouping.conditions
  {
    StickyIdOfRow(g, schema, next, k);
  }

  /** With consistent defaults the stickies carry the sticky fields' names, in schema order. */
  lemma StickiesFollowSchemaOrder(g: Grouping, schema: Schema, next: nat)
    requires StickyDefaultsPresent(schema) && ConsistentDefaults(schema)
    ensures var r := ExtractStickyConditions(g, schema, next);
      forall i | 0 <= i < |r.stickies| :: r.stickies[i].identifier == Str(StickyFields(schema)[i].name)
  {
    var fields := StickyFields(schema);
    var r := ExtractStickyConditions(g, schema, next);
    forall i | 0 <= i < |r.stickies|
      ensures r.stickies[i].identifier == Str(fields[i].name)
    {
      assert IsStickyFor(g.conditions, fields[i], next + i, r.stickies[i]);
      assert fields[i] in schema;
    }
  }

  /** `getAllStickyDefaults(optionsSchema)`: every sticky field's default, in schema order. */
  function GetAllStickyDefaults(schema: Schema, next: nat): (r: seq<Condition>)
    requires StickyDefaultsPresent(schema)
    ensures |r| == |StickyFields(schema)|
    ensures forall i | 0 <= i < |r| :: AtDefault(r[i], StickyFields(schema)[i])
  {
    var fields := StickyFields(schema);
    assert forall i | 0 <= i < |fields| :: fields[i].stickyDefault.Some?;
    var r := seq(|fields|, i requires 0 <= i < |fields| => DefaultCondition(fields[i], next + i));
    assert forall i | 0 <= i < |r| :: AtDefault(r[i], fields[i]);
    r
  }

  /** The defaults are exactly what extraction picks from a grouping with no rows. */
  lemma DefaultsAreEmptyExtraction(schema: Schema, op: JsValue, next: nat)
    requires StickyDefaultsPresent(schema)
    ensures GetAllStickyDefaults(schema, next) == ExtractStickyConditions(Grouping(op, []), schema, next).stickies
  {
    var fields := StickyFields(schema);
    var defaults := GetAllStickyDefaults(schema, next);
    var chosen := ChooseStickies([], fields, next);
    forall i | 0 <= i < |fields|
      ensures defaults[i] == chosen[i]
    {
      assert FirstMatch([], fields[i].name) == None;
    }
    assert defaults == chosen;
  }

  // ---------------------------------------------------------------------------
  // Reading the `q` parameter
  // ---------------------------------------------------------------------------

  /** What `JSON.parse` does with a text: a value, or a thrown syntax error. */
  datatype ParseResult = Parsed(json: JsValue) | SyntaxError

  /** The message written to the error console when `q` does not parse. */
  const PARSE_ERROR_MESSAGE: string := "Error parsing JSON:"

  /** The parsed data (`null` when there is none) and the error-console lines written. */
  datatype QueryRead = QueryRead(data: JsValue, log: seq<string>)

  /** `q` is present, non-empty, and `JSON.parse` rejects it. */
  predicate ParseFails(q: Option<string>, parse: string -> ParseResult) {
    q.Some? && q.value != "" && parse(q.value).SyntaxError?
  }

  function ReadQuery(q: Option<string>, parse: string -> ParseResult): (r: QueryRead)
    ensures r.log == (if ParseFails(q, parse) then [PARSE_ERROR_MESSAGE] else [])
    ensures q.Some? && q.value != "" && parse(q.value).Parsed? ==> r.data == parse(q.value).json
    ensures !(q.Some? && q.value != "" && parse(q.value).Parsed?) ==> r.data == Null
  {
    if q.Some? && q.value != "" then
      match parse(q.value)
      case Parsed(json) => QueryRead(json, [])
      case SyntaxError => QueryRead(Null, [PARSE_ERROR_MESSAGE])
    else QueryRead(Null, [])
  }

  /** A usable query is present: the parsed data is truthy. */
  predicate HasQuery(q: Option<string>, parse: string -> ParseResult) {
    Truthy(ReadQuery(q, parse).data)
  }

  /**
   * A usable query is what `JSON.parse` can produce (no `undefined` inside)
   * and has the shape `Grouping.fromObject` accepts.
   */
  predicate ShapedQuery(q: Option<string>, parse: string -> ParseResult) {
    HasQuery(q, parse) ==> IsJson(ReadQuery(q, parse).data) && IsGroupingShape(ReadQuery(q, parse).data)
  }

  /** Exactly these inputs count as "no query". */
  lemma NoQueryCases(q: Option<string>, parse: string -> ParseResult)
    ensures !HasQuery(q, parse) <==>
      || q.None?
      || q.value == ""
      || parse(q.value).SyntaxError?
      || !Truthy(parse(q.value).json)
  {
  }

  // ---------------------------------------------------------------------------
  // The composable
  // ---------------------------------------------------------------------------

  datatype Options = Options(optionsSchema: Option<Schema>, createDefault: bool)

  datatype ConfigurationError = MissingSchema

  /** `{grouping, stickies, original}` plus the error-console lines written. */
  datatype Loaded = Loaded(grouping: Option<Grouping>, stickies: seq<Condition>, original: Option<JsValue>, log: seq<string>)

  /** The grouping and stickies built from a usable query. */
  datatype QueryState = QueryState(grouping: Grouping, stickies: seq<Condition>)

  /**
   * The query-present branch: the parsed grouping with its stickies
   * extracted, plus one blank row when nothing is left and `createDefault`.
   */
  function LoadQuery(data: JsValue, schema: Schema, createDefault: bool, next: nat): (r: QueryState)
    requires StickyDefaultsPresent(schema) && IsGroupingShape(data)
    ensures r.grouping.operation == data.items[0]
    ensures |r.stickies| == |StickyFields(schema)|
    ensures createDefault ==> |r.grouping.conditions| > 0
  {
    var parsed := GroupingFromObject(data, next);
    var ex := ExtractStickyConditions(parsed, schema, next + |parsed.conditions|);
    var grouping :=
      if |ex.grouping.conditions| == 0 && createDefault
      then AddConditions(ex.grouping, [Blank(next + |parsed.conditions| + |ex.stickies|)])
      else ex.grouping;
    QueryState(grouping, ex.stickies)
  }

  /**
   * `useQueryFilters(options)` with the location's `q` value, `JSON.parse`,
   * and a supply of fresh correlation ids starting at `next`.
   */
  function UseQueryFilters(options: Options, q: Option<string>, parse: string -> ParseResult, next: nat)
    : (r: Result<Loaded, ConfigurationError>)
    requires options.optionsSchema.Some? ==>
      StickyDefaultsPresent(options.optionsSchema.value) && ShapedQuery(q, parse)
    ensures r.Failure? <==> options.optionsSchema.None?
    ensures r.Success? ==> r.value.log == (if ParseFails(q, parse) then [PARSE_ERROR_MESSAGE] else [])
    ensures r.Success? ==> (r.value.original.Some? <==> HasQuery(q, parse))
    ensures r.Success? && HasQuery(q, parse) ==> r.value.original == Some(ReadQuery(q, parse).data)
    ensures r.Success? ==> (r.value.grouping.None? <==> !HasQuery(q, parse) && !options.createDefault)
    ensures r.Success? && r.value.grouping.Some? ==>
      |r.value.stickies| == |StickyFields(options.optionsSchema.value)|
    ensures r.Success? && options.createDefault ==> |r.value.grouping.value.conditions| > 0
  {
    if options.optionsSchema.None? then Failure(MissingSchema)
    else
      var schema := options.optionsSchema.value;
      var read := ReadQuery(q, parse);
      if Truthy(read.data) then
        var loaded := LoadQuery(read.data, schema, options.createDefault, next);
        Success(Loaded(Some(loaded.grouping), loaded.stickies, Some(read.data), read.log))
      else if options.createDefault then
        Success(Loaded(Some(Grouping(Str("and"), [Blank(next)])),
                       GetAllStickyDefaults(schema, next + 1), None, read.log))
      else
        Success(Loaded(None, [], None, read.log))
  }

  /**
   * Without a usable query: `createDefault` gives an `and` grouping with one
   * blank row and every sticky at its default; otherwise there is no grouping
   * and no sticky. There is no original either way.
   */
  lemma LoadWithoutQuery(schema: Schema, createDefault: bool, q: Option<string>,
                         parse: string -> ParseResult, next: nat)
    requires StickyDefaultsPresent(schema)
    requires !HasQuery(q, parse)
    ensures var r := UseQueryFilters(Options(Some(schema), createDefault), q, parse, next);
      && r.Success?
      && r.value.original.None?
      && (createDefault ==>
            && r.value.grouping.Some?
            && r.value.grouping.value.operation == Str("and")
            && |r.value.grouping.value.conditions| == 1
            && SameFields(r.value.grouping.value.conditions[0], Blank(0))
            && |r.value.stickies| == |StickyFields(schema)|
            && forall i | 0 <= i < |r.value.stickies| :: AtDefault(r.value.stickies[i], StickyFields(schema)[i]))
      && (!createDefault ==> r.value.grouping.None? && r.value.stickies == [])
  {
  }

  /** With a usable query, the composable returns the loaded grouping and the parsed data as original. */
  lemma LoadWithQuery(schema: Schema, createDefault: bool, q: Option<string>,
                      parse: string -> ParseResult, next: nat)
    requires StickyDefaultsPresent(schema)
    requires HasQuery(q, parse) && ShapedQuery(q, parse)
    ensures var data := ReadQuery(q, parse).data;
      var loaded := LoadQuery(data, schema, createDefault, next);
      UseQueryFilters(Options(Some(schema), createDefault), q, parse, next)
        == Success(Loaded(Some(loaded.grouping), loaded.stickies, Some(data), []))
  {
  }

  /**
   * The loaded grouping is the parsed one with its stickies extracted;
   * `createDefault` adds one blank row only when nothing is left.
   */
  lemma LoadQueryBlankRow(data: JsValue, schema: Schema, createDefault: bool, next: nat)
    requires StickyDefaultsPresent(schema) && IsGroupingShape(data)
    ensures var parsed := GroupingFromObject(data, next);
      var ex := ExtractStickyConditions(parsed, schema, next + |parsed.conditions|);
      var r := LoadQuery(data, schema, createDefault, next);
      && r.stickies == ex.stickies
      && (|ex.grouping.conditions| > 0 || !createDefault ==> r.grouping == ex.grouping)
      && (|ex.grouping.conditions| == 0 && createDefault ==>
            |r.grouping.conditions| == 1 && IsBlank(r.grouping.conditions[0]))
  {
  }

  /** A grouping whose one row is for the only sticky field gives up that row and is left empty. */
  lemma ExtractSingleSticky(row: Condition, op: JsValue, schema: Schema, next: nat)
    requires StickyDefaultsPresent(schema) && |StickyFields(schema)| == 1
    requires row.identifier == Str(StickyFields(schema)[0].name)
    ensures ExtractStickyConditions(Grouping(op, [row]), schema, next) == Extraction([row], Grouping(op, []))
  {
    ChooseSingleSticky(row, StickyFields(schema), next);
    RemoveSingle(row, op);
  }

  lemma ChooseSingleSticky(row: Condition, fields: Schema, next: nat)
    requires |fields| == 1 && fields[0].stickyDefault.Some?
    requires row.identifier == Str(fields[0].name)
    ensures ChooseStickies([row], fields, next) == [row]
  {
    assert FirstMatch([row], fields[0].name) == Some(0);
  }

  lemma RemoveSingle(row: Condition, op: JsValue)
    ensures RemoveConditions(Grouping(op, [row]), [row]) == Grouping(op, [])
  {
    var cs := [row];
    assert cs[0] == row;
    assert IdsOf(cs) == {row.id};
    assert Without(cs, {row.id}) == [];
  }

  /**
   * A query holding just one row, for the only sticky field: that row becomes
   * the sticky, keeping the query's value, and `createDefault` leaves one
   * blank row under the query's operator.
   */
  lemma StickyOnlyQuery(data: JsValue, schema: Schema, next: nat)
    requires StickyDefaultsPresent(schema) && |StickyFields(schema)| == 1
    requires IsGroupingShape(data) && |data.items[1].items| == 1
    requires data.items[1].items[0].items[0] == Str(StickyFields(schema)[0].name)
    ensures var r := LoadQuery(data, schema, true, next);
      && r.stickies == [ConditionFromObject(data.items[1].items[0], next)]
      && r.grouping == Grouping(data.items[0], [Blank(next + 2)])
  {
    var row := ConditionFromObject(data.items[1].items[0], next);
    var parsed := GroupingFromObject(data, next);
    assert parsed == Grouping(data.items[0], [row]);
    ExtractSingleSticky(row, data.items[0], schema, next + 1);
  }

  /**
   * With no sticky fields, a usable query in written form loads into a
   * grouping that writes back exactly the original.
   */
  lemma LoadRoundTrip(schema: Schema, createDefault: bool, q: Option<string>,
                      parse: string -> ParseResult, next: nat)
    requires StickyDefaultsPresent(schema) && StickyFields(schema) == []
    requires HasQuery(q, parse) && IsCanonicalGrouping(ReadQuery(q, parse).data)
    requires |ReadQuery(q, parse).data.items[1].items| > 0 || !createDefault
    ensures var r := UseQueryFilters(Options(Some(schema), createDefault), q, parse, next);
      && r.Success? && r.value.grouping.Some? && r.value.original.Some?
      && r.value.stickies == []
      && Stringify(GroupingToObject(r.value.grouping.value)) == r.value.original.value
  {
    var data := ReadQuery(q, parse).data;
    var parsed := GroupingFromObject(data, next);
    var ex := ExtractStickyConditions(parsed, schema, next + |parsed.conditions|);
    LoadWithQuery(schema, createDefault, q, parse, next);
    LoadQueryBlankRow(data, schema, createDefault, next);
    assert IdsOf(ex.stickies) == {};
    WithoutAbsent(parsed.conditions, {});
    assert ex.grouping == parsed;
    GroupingWireRoundTrip(data, next);
  }

  /** A `q` that does not parse is reported once and then treated as absent. */
  lemma ParseErrorFallback(schema: Schema, s: string, parse: string -> ParseResult, next: nat)
    requires StickyDefaultsPresent(schema)
    requires s != "" && parse(s).SyntaxError?
    ensures var r := UseQueryFilters(Options(Some(schema), false), Some(s), parse, next);
      && r.Success?
      && r.value.grouping.None? && r.value.original.None? && r.value.stickies == []
      && r.value.log == [PARSE_ERROR_MESSAGE]
  {
  }
}

=== FILE: wrappers.dfy ===
/** `Option` and `Result`, used across the model. */
module Wrappers {

  /** An optional value: `None` stands for JavaScript's `undefined`/`null` result. */
  datatype Option<+T> = None | Some(value: T)

  /** A value or the error that the source would throw instead. */
  datatype Result<+R, +E> = Success(value: R) | Failure(error: E)
}
